=== FILE: README.md ===
# Sport events: a Dafny model of the match classifier and the provider pipeline

This project models the pure logic of a small service. The service fetches
football, MMA and NBA fixtures from sports data providers and turns each one
into a `Match`. A match has calendar flags relative to the day it was built:
current week, next week, old, later, recent, next 7 days and next 15 days.
The service prints the matches of one time frame as one-line cards.

The model has seven modules, one per file:

- `Common` (`common.dfy`): the error values that stand for the Python
  exceptions, `Result`/`Option`, and two sequence helpers.
- `Text` (`text.dfy`): the `str` methods the MMA slug heuristics use:
  `split()`, `strip()`, `find`, slicing, `lower()` and `isdigit()`.
- `Domain` (`match.dfy`): `Match.__init__`'s bucket flags, `meets_time_frame`,
  `__str__`, `sport_abr` and `get_match_card`.
- `Adapters` (`adapters.dfy`): the football and NBA field mappings and the
  MMA adapter. The MMA adapter covers `is_event_numbered`,
  `_get_dates_per_event`, the ":"/"vs." split of a slug and `_create_match`.
- `Factory` (`factory.dfy`): the `Sports` names, `SportApiFactory._MAP` and
  the factory call.
- `Lists` (`lists.dfy`): the list work of `AllSportsService.__call__`.
  This covers keeping the matches that pass a test, Python's stable
  `sort(key=...)` and the run collapsing of `_print_cards`.
- `Aggregation` (`aggregation.dfy`): `AllSportsService`, i.e. fetching the
  active sports in order and the call's filter, sort, identity dedupe and
  card printing.

Dates are day ordinals as Python's `date.toordinal()` numbers them, with
`Weekday(d) = (d + 6) % 7` (Monday is 0). The clock is a parameter: `now` is
the day ordinal of the moment a match is built. A start instant is given
already converted to New York time. It carries its sort key (`wallClock`,
the New York wall-clock time, which is what Python compares between aware
datetimes sharing one time zone object), its calendar day and its printed
form. Adapters receive the decoded `response` list of each configured team
instead of making HTTP requests. Payloads and configuration blocks are
typed records, so only the exceptions the code raises on well-formed data
are modelled; they become `Err` values.

`next_week_end = current_week_end + 6` (domain/match.py:39), so the
next-week bucket runs Monday to Saturday and the following Sunday is
"later".

## Model

| member | source | states |
|---|---|---|
| Domain.Weekday | domain/match.py:36 | `weekday()` of a day ordinal lies in 0..6 |
| Domain.WeekStart | domain/match.py:36-37 | the current week starts on a Monday, on or at most six days before the day |
| Domain.WeekStartOfWeekDay | domain/match.py:36-37 | every day of a Monday's seven-day week has that Monday as its week start, and its weekday is its distance from the Monday |
| Domain.Classify | domain/match.py:34-48 | the flags never put a match in both the current and the next week; next week is never old; later excludes current week, next week and old; every match is old, current week, next week or later; recent is current or next week; next 7 days implies next 15 days, which implies not old; a match today is in the current week and the next 7 days |
| Domain.CurrentWeekIsCalendarWeek | domain/match.py:36-41 | a match is in the current week exactly when its start day has the same Monday as today |
| Domain.NextWeekIsMondayToSaturday | domain/match.py:38-42 | a match is in the next week exactly when its start day lies in the following calendar week and is not its Sunday |
| Domain.NextSundayIsLater | domain/match.py:39-48 | the Sunday that closes the following calendar week is not next week but later |
| Domain.NewMatch | domain/match.py:11-48 | the constructor keeps its arguments and its flags put the match in "old", "this_week" or "next_week" exactly by the calendar conditions |
| Domain.MeetsTimeFrame | domain/match.py:50-70 | "all" and unknown frame names accept every match; "recent" is recent and not old |
| Domain.RecentIsThisOrNextWeek | domain/match.py:62-67 | "recent" holds exactly when "this_week" or "next_week" holds |
| Domain.TimeBucket | domain/match.py:58-70 | exactly one of "old", "this_week", "next_week" and "later" accepts any match |
| Domain.SportAbr | domain/match.py:24 | the abbreviation is "FOT" for football and the league otherwise |
| Domain.DayLabel | domain/match.py:32 | the weekday label is three upper-case letters |
| Domain.DayLabelNamesWeekday | domain/match.py:32 | the weekday can be read back from its label, so two days get the same label exactly when they share a weekday, and "MON" labels exactly the Mondays |
| Domain.MatchText | domain/match.py:72-73 | `str(match)` is the home name, " vs ", the away name, " at " and the printed start, in that order |
| Domain.TimeLabel | domain/match.py:84-94 | the label is "--next" exactly in the current week, "--next_week" exactly next week, "--is_old" exactly when old and not in the current week, "--later ->" exactly when later |
| Domain.MatchCard | domain/match.py:84-95 | a card is never empty, so no card equals the "" the printing loop starts from |
| Domain.CardLayout | domain/match.py:84-95 | a labelled card is the label followed by the unlabelled card; the unlabelled card is a space, the weekday (`DayOfWeek`) and an arrow, then a space and `str(match)`, then the sport abbreviation in parentheses, so a football card ends in ", (FOT)" |
| Common.SomesAligned | services/api_sports_io.py:88-96 | skipping events drops nothing exactly when no event is skipped, and then the results line up with the events |
| Common.SomesFull | services/api_sports_io.py:88-96 | the events yield as many matches as there are events exactly when none is skipped |
| Common.SomesLineUp | services/api_sports_io.py:88-96 | when no event is skipped, the `k`-th result is the value of the `k`-th entry |
| Common.SomesCounts | services/api_sports_io.py:88-96 | each value occurs in the result as often as its present entry occurs among the entries; skipped entries contribute nothing |
| Common.SomesIsSubsequence | services/api_sports_io.py:88-96 | the result is the values of the present entries at increasing positions, and every present entry's position is among them |
| Text.Words | services/api_sports_io.py:126 | `split()` yields non-empty words without whitespace, and none exactly when the string is all whitespace |
| Text.WordsOfJoin | services/api_sports_io.py:126 | `split()` undoes joining words with single spaces |
| Text.WordsOfTwo | services/api_sports_io.py:126 | two words joined by a space split into those two words |
| Text.Strip | services/api_sports_io.py:106-107 | `strip()` yields a string that neither starts nor ends with whitespace and is no longer than its input |
| Text.StripIsPadded | services/api_sports_io.py:106-107 | `strip()` removes only whitespace, and only from the two ends: the result is a slice with all-whitespace text around it |
| Text.StripPadded | services/api_sports_io.py:106-107 | stripping a trimmed string padded with whitespace gives the string back |
| Text.StripIdempotent | services/api_sports_io.py:106-107 | stripping twice is stripping once |
| Text.Find | services/api_sports_io.py:89 | `find` returns -1 exactly when the pattern does not occur, and otherwise the first position where it occurs |
| Text.Slice | services/api_sports_io.py:106-107 | a slice within bounds is the sub-sequence, and crossed bounds give the empty string |
| Text.LowerAt | services/api_sports_io.py:127 | on ASCII, `lower()` lower-cases each character in place |
| Text.IsDigits | services/api_sports_io.py:127 | on ASCII, `isdigit()` holds exactly when the string is non-empty and every character is one of `0`..`9` |
| Text.AllDigitsChars | services/api_sports_io.py:127 | the character-by-character digit test accepts exactly the strings made only of `0`..`9` |
| Adapters.FootballMatch | services/api_sports_io.py:57-66 | a fixture becomes a football match of "La Liga" between `teams.home` and `teams.away`, starting at `fixture.date`, abbreviated "FOT" |
| Adapters.FootballCall | services/api_sports_io.py:38-55 | one match per fixture, team after team, in order: the per-team loop equals `FootballMatches`, the map of line 53 over the flattened responses |
| Adapters.NbaMatch | services/api_sports_io.py:153-162 | a game becomes a basketball match of the "NBA" between `teams.home` and `teams.visitors`, starting at `date.start` |
| Adapters.NbaCall | services/api_sports_io.py:136-151 | one match per game, team after team, in order: the per-team loop equals `NbaMatches`, the map of line 149 over the flattened responses |
| Adapters.IsEventNumbered | services/api_sports_io.py:123-127 | the test fails, with the slug, exactly when the slug has fewer than two words |
| Adapters.UfcInAnyCase | services/api_sports_io.py:127 | the promotion test accepts "ufc" in any mix of cases and nothing else |
| Adapters.IsEventNumberedOfWords | services/api_sports_io.py:126-127 | on a slug of at least two words the result is: the first word is "ufc" in any case and the second without its last character is all digits |
| Adapters.TwoWordSlug | services/api_sports_io.py:126-127 | the same for a slug of exactly two words |
| Adapters.OneWordSlug | services/api_sports_io.py:126 | a one-word slug makes the unpacking fail |
| Adapters.NumberedExample | services/api_sports_io.py:123-127 | "UFC 311" is a numbered event |
| Adapters.ColonNumberedExample | services/api_sports_io.py:123-127 | "UFC 311:" is a numbered event |
| Adapters.OneDigitExample | services/api_sports_io.py:123-127 | "UFC 3" is not: nothing is left once its last character is dropped |
| Adapters.OtherPromotionExample | services/api_sports_io.py:123-127 | "PFL 10:" is not |
| Adapters.FightNightExample | services/api_sports_io.py:123-127 | "UFC Fight Night" is not |
| Adapters.OneWordExample | services/api_sports_io.py:123-127 | "UFC" alone makes the test fail |
| Adapters.MarkFight | services/api_sports_io.py:116 | a fight's test fails exactly on a short slug and otherwise says whether the fight is on the main card of a numbered event |
| Adapters.KeptSlugsMeaning | services/api_sports_io.py:114-117 | a slug has a group exactly when some earlier fight with it qualified |
| Adapters.FirstQualifyingIsUnseen | services/api_sports_io.py:114-117 | a fight opens a group exactly when it qualifies and no earlier fight with its slug qualified |
| Adapters.EventsAreKeptSlugs | services/api_sports_io.py:114-121 | the events are the grouped slugs, each exactly once |
| Adapters.DatesPerEventAppend | services/api_sports_io.py:117-120 | adding a fight to an existing group changes no event's date in `DatesPerEvent`, the list comprehension of lines 118-120 |
| Adapters.DatesPerEventNew | services/api_sports_io.py:117-120 | a new group adds one event at the end, dated by its first fight |
| Adapters.GroupKept | services/api_sports_io.py:114-121 | the dictionary loop returns one event per slug, in the order of each slug's first qualifying fight, dated by that fight |
| Adapters.GetDatesPerEvent | services/api_sports_io.py:111-121 | the grouping fails exactly when some slug is too short, with the first such slug, and otherwise returns the events of the qualifying fights |
| Adapters.SplitSlug | services/api_sports_io.py:89-92 | no names exactly when the slug lacks ":" or "vs."; otherwise both names are trimmed |
| Adapters.NamesAt | services/api_sports_io.py:106-107 | the names cut out of a slug are trimmed |
| Adapters.NoVsAcross | services/api_sports_io.py:89 | a character other than 'v', 's' and '.' between two strings without "vs." creates no "vs." |
| Adapters.TitlePositions | services/api_sports_io.py:89 | in "prefix: home vs. away", `find` locates ":" right after the prefix and "vs." right after " home " |
| Adapters.SplitSlugOfTitle | services/api_sports_io.py:89-107 | the slug "prefix: home vs. away" splits back into the two names when the prefix has no ":" and neither prefix nor home contains "vs." |
| Adapters.SplitSlugExample | services/api_sports_io.py:89-107 | "UFC 311: Jones vs. Miocic" splits into "Jones" and "Miocic" |
| Adapters.MmaMatch | services/api_sports_io.py:100-109 | an MMA match of the "UFC" between the two names cut out of the slug |
| Adapters.EventMatch | services/api_sports_io.py:88-96 | an event is skipped exactly when its slug does not split, and otherwise becomes an MMA "UFC" match between the split names at the event's date |
| Adapters.EventMatches | services/api_sports_io.py:87-97 | no more matches than events, all MMA and "UFC" |
| Adapters.EventMatchesNames | services/api_sports_io.py:87-97 | no event is dropped exactly when every slug splits, and then the matches carry the names of their events in order |
| Adapters.EventMatchesSnoc | services/api_sports_io.py:88-96 | one step of the skip loop: an event whose slug splits appends its match to the earlier ones, and any other event appends nothing |
| Adapters.EventMatchesKept | services/api_sports_io.py:88-96 | the matches are exactly those of the events whose slug splits, in event order: each comes from such an event, at increasing positions, and every such event contributes one |
| Adapters.MmaReferenceIsUfc | services/api_sports_io.py:101-105 | every MMA match is an MMA "UFC" match |
| Adapters.MmaTeam | services/api_sports_io.py:85-97 | one team's fetch fails exactly when one of its slugs is too short, with the first such slug |
| Adapters.MmaCall | services/api_sports_io.py:75-98 | the MMA adapter fails exactly when some team has a short slug, with the first one of the first such team, and otherwise returns each team's matches in order |
| Factory.ParseSport | services/api_sports_io.py:176 | `Sports(name)` fails with the name exactly when no sport has that value |
| Factory.ParseSportValue | services/api_sports_io.py:176-177 | a sport's value parses back to the sport |
| Factory.AdapterFor | services/api_sports_io.py:168-172 | the adapter registered for a sport serves that sport |
| Factory.MapIsOneToOne | services/api_sports_io.py:168-172 | `_MAP` pairs sports and adapter classes one to one |
| Factory.SelectService | services/api_sports_io.py:174-179 | the factory fails on an unknown name, then on a missing configuration block, and otherwise builds the sport's adapter from its block |
| Factory.ActiveSportsAdapters | services/api_sports_io.py:168-187 | "football", "mma" and "nba" are served by the football, MMA and NBA adapters |
| Lists.FilterCounts | services/api_sports_io.py:199-202 | the selection keeps each element that passes as often as it occurs, and nothing else |
| Lists.FilterIsSubsequence | services/api_sports_io.py:199-202 | the selection is the input at increasing positions |
| Lists.SortBySorted | services/api_sports_io.py:205 | the sort yields a sequence sorted by the key holding the same elements |
| Lists.SortByStable | services/api_sports_io.py:205 | the elements of each key keep their relative order |
| Lists.SortedUnique | services/api_sports_io.py:205 | two sequences sorted by a key with the same elements of each key, in the same order, are equal |
| Lists.WithKeyMembers | services/api_sports_io.py:205 | the elements of a key are exactly the elements with that key |
| Lists.CollapseIsSubsequence | services/api_sports_io.py:222-232 | the printed cards are the input cards at increasing positions |
| Lists.RunStartsExact | services/api_sports_io.py:222-232 | a card is printed exactly when it differs from the card before it, or from "" for the first |
| Lists.CollapseLast | services/api_sports_io.py:222-232 | nothing is printed exactly when every card equals the starting value; otherwise the last card printed is the last card |
| Lists.CollapseNoAdjacent | services/api_sports_io.py:222-232 | no two cards printed in a row are equal |
| Lists.CollapseUnchanged | services/api_sports_io.py:222-232 | cards without equal neighbours, the first differing from the starting value, are all printed |
| Aggregation.RunService | services/api_sports_io.py:218 | on well-formed payloads, calling an adapter fails only for MMA with a short slug, and otherwise returns that adapter's matches |
| Aggregation.FetchSport | services/api_sports_io.py:218 | one sport fails exactly when the factory or its adapter does, with that error, and otherwise yields its adapter's matches |
| Aggregation.GetMatches | services/api_sports_io.py:213-220 | on well-formed payloads, the fetch fails exactly when some sport fails, with the error of the first failing sport, and otherwise concatenates the sports' matches in order |
| Aggregation.AllMatchesOfThree | services/api_sports_io.py:216-220 | three sports that do not fail contribute their matches in order |
| Aggregation.ActiveMatches | services/api_sports_io.py:185-188 | on well-formed payloads and with a block for each active sport, building the service fails exactly on a short MMA slug and otherwise holds the football, MMA and NBA matches in that order |
| Aggregation.MissingFootballBlock | services/api_sports_io.py:176-177 | without a football block the fetch fails on football with the missing-block error |
| Aggregation.SelectFrameCounts | services/api_sports_io.py:199-202 | `SelectFrame`, the filter loop, keeps exactly the matches meeting the frame, each as often as fetched |
| Aggregation.AnyStableSortIsSortByStart | services/api_sports_io.py:205 | any stable sort of the matches by start gives `SortByStart`, the model's sort of line 205 |
| Aggregation.RemoveDuplicatedMatches | services/api_sports_io.py:234-238 | the dedupe returns its input: no match is dropped |
| Aggregation.PrintCards | services/api_sports_io.py:222-232 | the printing loop prints each card that differs from the one before it, the first compared with "" |
| Aggregation.Call | services/api_sports_io.py:190-211 | the call returns the matches meeting the frame, each as often as fetched, sorted by start, with equal starts in fetched order, and prints the collapsed `Cards` of lines 207-209, one labelled card per match |
| Aggregation.CallCards | services/api_sports_io.py:207-210 | the printed cards have no equal neighbours, and cards without equal neighbours all print |

## Left out

- HTTP requests, headers and `response.json()`: network input. Each adapter takes the decoded `response` list of every team instead.
- The API key lookup `os.getenv` and the request parameters built from each team's configuration: process environment and network details.
- `BaseSportApi.get_week_dates`: it reads the clock, and its values are never used.
- `format_date`: `fromisoformat` and the `America/New_York` time zone conversion are library calls. A start instant is given already converted, with its calendar day and its printed form.
- The `strftime("%a")` weekday label: modelled as the C-locale three-letter names indexed by `Weekday`.
- The `time` string and the `id` field of a match: never read by the modelled code.
- The clock: `datetime.now()` is read once per `Match` in the source. The model takes the day `now` of each construction as a parameter, and adapters build all their matches on one `now`.
- The banner line printed by `__call__`: console decoration.
- Persistence (`from_entity`, `to_entity`, `save`, `delete_all`, `core/match.py`, `core/base_db.py`), the Flask and JWT endpoints, `application/match.py`, `main.py` and the JSON file loading of `config/config.py`: outside the logic modelled here. The factory receives the already loaded `sport` section of the configuration.
- `services/sports_io_nba.py`: an older, superseded copy of the NBA adapter with stub classes.
- `core.Sports` is not part of this model. Its three values "football", "mma" and "nba" are the names `AllSportsService.active` passes to `Sports(...)`.
- `Factory.SelectService`: a configuration without a top-level `sport` key (a KeyError in the source) is not modelled, because the model receives that section directly.
- `Domain.Classify`: any integer is accepted as a day and always yields flags. Python's dates stop at ordinal 3652059 (31 December 9999), and the `timedelta` additions of domain/match.py:37-44 raise OverflowError when today is within about two weeks of that day. The model has no such error path and no bounded date range.
- `Text.IsDigits`: only `0`..`9` count as digits. Python's `isdigit()` also accepts other Unicode digits such as "²" and "٣", so the model says false where Python says true for them.
- `Text.LowerAt`: `Lower` folds only `A`..`Z`. Python's `lower()` also folds other Unicode letters, and some of them lower to two characters, so outside ASCII the result is neither Python's nor the same length. No non-ASCII character lowers to "u", "f" or "c", so the comparison with "ufc" comes out as in Python.
- `Adapters.IsEventNumbered`: through `Text.IsDigits`, a slug whose number uses non-ASCII digits tests false where Python tests true. The "ufc" comparison is exact (see `Text.LowerAt`).
- `Adapters.GetDatesPerEvent`: the model tests every slug before grouping, while the source tests and groups in one loop. A failing test discards the whole result either way, so both return the same thing.
- `Lists.SortBy`: Python's Timsort is modelled by an insertion sort. `Lists.SortedUnique` shows that every stable sort by the same key gives the same sequence.
- `Aggregation.RunService`: payloads and configuration blocks are assumed to be well-formed records. In the source, a missing key or a value of the wrong type raises KeyError, TypeError or IndexError. This covers `sport_data["url"]`, `["teams"]` and `["api_key_name"]` (services/api_sports_io.py:15-17), the fixture fields (63-65), `fight["slug"]` and `fight["is_main"]` (116), `details[0]["date"]` (120) and the game fields (159-161). An unparsable date also makes `fromisoformat` raise ValueError. None of these errors is modelled, so `RunService`, `GetMatches` and `ActiveMatches` promise failure only on a short MMA slug or a bad sport name.
- `Aggregation.Responses`: the number of response lists is not tied to the number of teams in a configuration block.

=== FILE: adapters.dfy ===
/** The provider adapters of `services/api_sports_io.py`, taken from the
    point where each request's JSON body has been decoded: every adapter
    receives the `response` list of each configured team, in the order of
    the teams, and maps it to matches built on day `now`. */
module Adapters {
  import opened Common
  import opened Text
  import opened Domain

  /** The fields `RapidApiFootball._create_match` reads from one fixture:
      `teams.home.name`, `teams.away.name` and `fixture.date`. */
  datatype FootballFixture = FootballFixture(homeName: string, awayName: string, fixtureDate: Instant)

  /** The fields `SportsIoNBA._create_match` reads from one game:
      `teams.home.name`, `teams.visitors.name` and `date.start`. */
  datatype NbaGame = NbaGame(homeName: string, visitorsName: string, dateStart: Instant)

  /** One fight record of the MMA provider: its event slug, whether it is on
      the main card, and its date. */
  datatype Fight = Fight(slug: string, isMain: bool, date: Instant)

  /** One `(date, slug)` pair of `_get_dates_per_event`. */
  datatype Event = Event(date: Instant, slug: string)

  // ---------------------------------------------------------------- football

  /** `RapidApiFootball._create_match`. */
  function FootballMatch(g: FootballFixture, now: int): (m: Match)
    ensures m.sport == "football" && m.league == "La Liga" && m.details == ""
    ensures m.home == g.homeName && m.away == g.awayName && m.start == g.fixtureDate
    ensures m.createdOn == now && SportAbr(m) == "FOT"
  {
    NewMatch("football", g.homeName, g.awayName, g.fixtureDate, "La Liga", "", now)
  }

  /** The list comprehension over one team's fixtures. */
  function FootballMatches(data: seq<FootballFixture>, now: int): (ms: seq<Match>)
    ensures |ms| == |data|
    ensures forall i :: 0 <= i < |data| ==> ms[i] == FootballMatch(data[i], now)
  {
    seq(|data|, i requires 0 <= i < |data| => FootballMatch(data[i], now))
  }

  /** `RapidApiFootball.__call__`: one match per fixture of every team, team
      after team. */
  function FootballCall(responses: seq<seq<FootballFixture>>, now: int): (ms: seq<Match>)
    ensures |ms| == TotalLength(responses)
    ensures ms == FootballMatches(Flatten(responses), now)
  {
    if responses == [] then []
    else
      var init := responses[..|responses| - 1];
      var last := responses[|responses| - 1];
      FootballCall(init, now) + FootballMatches(last, now)
  }

  // --------------------------------------------------------------------- NBA

  /** `SportsIoNBA._create_match`: the away side is the provider's visitors. */
  function NbaMatch(g: NbaGame, now: int): (m: Match)
    ensures m.sport == "basketball" && m.league == "NBA" && m.details == ""
    ensures m.home == g.homeName && m.away == g.visitorsName && m.start == g.dateStart
    ensures m.createdOn == now && SportAbr(m) == "NBA"
  {
    NewMatch("basketball", g.homeName, g.visitorsName, g.dateStart, "NBA", "", now)
  }

  function NbaMatches(data: seq<NbaGame>, now: int): (ms: seq<Match>)
    ensures |ms| == |data|
    ensures forall i :: 0 <= i < |data| ==> ms[i] == NbaMatch(data[i], now)
  {
    seq(|data|, i requires 0 <= i < |data| => NbaMatch(data[i], now))
  }

  /** `SportsIoNBA.__call__`. */
  function NbaCall(responses: seq<seq<NbaGame>>, now: int): (ms: seq<Match>)
    ensures |ms| == TotalLength(responses)
    ensures ms == NbaMatches(Flatten(responses), now)
  {
    if responses == [] then []
    else
      var init := responses[..|responses| - 1];
      var last := responses[|responses| - 1];
      NbaCall(init, now) + NbaMatches(last, now)
  }

  // --------------------------------------------------------------------- MMA

  /** The promotion token and the number token of a numbered event. */
  predicate NumberedTokens(company: string, event: string)
    requires event != []
  {
    Lower(company) == "ufc" && IsDigits(event[..|event| - 1])
  }

  /** `SportsIoMMA.is_event_numbered`: the first token is "ufc" in any case
      and the second, without its last character, is all digits. Fewer than
      two tokens make the tuple unpacking fail. */
  function IsEventNumbered(slug: string): (r: Result<bool>)
    ensures r.Err? <==> |Words(slug)| < 2
    ensures r.Err? ==> r.error == NotEnoughTokens(slug)
  {
    var ws := Words(slug);
    if |ws| < 2 then Err(NotEnoughTokens(slug))
    else Ok(NumberedTokens(ws[0], ws[1]))
  }

  lemma LowerCharIs(c: char, lower: char, upper: char)
    requires 'a' <= lower <= 'z' && upper as int == lower as int - 32
    ensures LowerChar(c) == lower <==> c == lower || c == upper
  {
  }

  /** "ufc" in any mix of cases, and nothing else, passes the promotion test. */
  lemma UfcInAnyCase(company: string)
    ensures Lower(company) == "ufc"
        <==> && |company| == 3
             && (company[0] == 'u' || company[0] == 'U')
             && (company[1] == 'f' || company[1] == 'F')
             && (company[2] == 'c' || company[2] == 'C')
  {
    if |company| == 3 {
      LowerCharIs(company[0], 'u', 'U');
      LowerCharIs(company[1], 'f', 'F');
      LowerCharIs(company[2], 'c', 'C');
      LowerOfThree(company);
      var l := [LowerChar(company[0]), LowerChar(company[1]), LowerChar(company[2])];
      assert l == "ufc" <==> l[0] == 'u' && l[1] == 'f' && l[2] == 'c';
    }
  }

  lemma LowerOfThree(s: string)
    requires |s| == 3
    ensures Lower(s) == [LowerChar(s[0]), LowerChar(s[1]), LowerChar(s[2])]
  {
    LowerAt(s, 0);
    LowerAt(s, 1);
    LowerAt(s, 2);
  }

  /** On a slug made of words, the test looks at the first word and at the
      second word without its last character, and ignores the rest. */
  lemma IsEventNumberedOfWords(ws: seq<string>)
    requires ValidWords(ws) && |ws| >= 2
    ensures IsEventNumbered(JoinWords(ws))
         == Ok(Lower(ws[0]) == "ufc" && IsDigits(ws[1][..|ws[1]| - 1]))
  {
    WordsOfJoin(ws);
  }

  /** The heuristic on a slug of two words. */
  lemma TwoWordSlug(company: string, number: string)
    requires company != [] && NoSpace(company) && number != [] && NoSpace(number)
    ensures IsEventNumbered(company + " " + number)
         == Ok(Lower(company) == "ufc" && IsDigits(number[..|number| - 1]))
  {
    WordsOfTwo(company, number);
    NumberedByWords(company + " " + number, [company, number]);
  }

  /** The test reads the first two words only. */
  lemma NumberedByWords(slug: string, ws: seq<string>)
    requires Words(slug) == ws && |ws| >= 2
    ensures IsEventNumbered(slug) == Ok(Lower(ws[0]) == "ufc" && IsDigits(ws[1][..|ws[1]| - 1]))
  {
  }

  /** A slug of one word makes the tuple unpacking fail. */
  lemma OneWordSlug(word: string)
    requires word != [] && NoSpace(word)
    ensures IsEventNumbered(word) == Err(NotEnoughTokens(word))
  {
    assert JoinWords([word]) == word;
    WordsOfJoin([word]);
  }

  /** A numbered UFC event is accepted: "UFC 311". */
  lemma NumberedExample(company: string, number: string)
    requires company == "UFC" && number == "311"
    ensures IsEventNumbered(company + " " + number) == Ok(true)
  {
    assert Lower(company) == "ufc" by {
      UfcInAnyCase(company);
    }
    assert IsDigits(number[..|number| - 1]) by {
      assert number[..|number| - 1] == "31";
    }
    PrintableWord(company);
    PrintableWord(number);
    TwoWordSlug(company, number);
  }

  /** The colon that usually follows the number is the dropped last
      character: "UFC 311:". */
  lemma ColonNumberedExample(company: string, number: string)
    requires company == "UFC" && number == "311:"
    ensures IsEventNumbered(company + " " + number) == Ok(true)
  {
    assert Lower(company) == "ufc" by {
      UfcInAnyCase(company);
    }
    assert IsDigits(number[..|number| - 1]) by {
      var digits := number[..|number| - 1];
      assert digits == "311";
      assert AllDigits(digits[2..]) by { assert digits[2..][1..] == []; }
      assert AllDigits(digits[1..]) by { assert digits[1..][1..] == digits[2..]; }
    }
    PrintableWord(company);
    PrintableWord(number);
    TwoWordSlug(company, number);
  }

  /** A one-digit event number leaves nothing to test after its last
      character is dropped, so "UFC 3" is not a numbered event. */
  lemma OneDigitExample(company: string, number: string)
    requires company == "UFC" && number == "3"
    ensures IsEventNumbered(company + " " + number) == Ok(false)
  {
    assert !IsDigits(number[..|number| - 1]) by {
      assert number[..|number| - 1] == [];
    }
    PrintableWord(company);
    PrintableWord(number);
    TwoWordSlug(company, number);
  }

  /** Another promotion is not "ufc": "PFL 10:". */
  lemma OtherPromotionExample(company: string, number: string)
    requires company == "PFL" && number == "10:"
    ensures IsEventNumbered(company + " " + number) == Ok(false)
  {
    assert Lower(company) != "ufc" by {
      UfcInAnyCase(company);
    }
    PrintableWord(company);
    PrintableWord(number);
    TwoWordSlug(company, number);
  }

  /** "Fight Night" events are not numbered: "UFC Fight Night". */
  lemma FightNightExample(company: string, event: string, name: string)
    requires company == "UFC" && event == "Fight" && name == "Night"
    ensures IsEventNumbered(company + " " + event + " " + name) == Ok(false)
  {
    var ws := [company, event, name];
    assert !IsDigits(event[..|event| - 1]) by {
      assert event[..|event| - 1][0] == 'F';
    }
    assert ValidWords(ws) by {
      PrintableWord(company);
      PrintableWord(event);
      PrintableWord(name);
    }
    assert JoinWords(ws) == company + " " + event + " " + name by {
      assert JoinWords(ws[2..]) == name;
      assert JoinWords(ws[1..]) == event + " " + name;
    }
    IsEventNumberedOfWords(ws);
  }

  /** A one-word slug makes the tuple unpacking fail: "UFC". */
  lemma OneWordExample(word: string)
    requires word == "UFC"
    ensures IsEventNumbered(word) == Err(NotEnoughTokens(word))
  {
    PrintableWord(word);
    OneWordSlug(word);
  }

  /** A fight the grouping keeps: on the main card of a numbered event. */
  predicate Qualifies(f: Fight)
  {
    f.isMain && IsEventNumbered(f.slug) == Ok(true)
  }

  /** A fight whose slug makes `is_event_numbered` fail. */
  predicate ShortSlug(f: Fight)
  {
    |Words(f.slug)| < 2
  }

  /** Which fights the grouping keeps, fight by fight. */
  function Marks(data: seq<Fight>): (keep: seq<bool>)
    ensures |keep| == |data|
  {
    seq(|data|, i requires 0 <= i < |data| => Qualifies(data[i]))
  }

  /** Fight `i` qualifies and no earlier fight qualifies with the same slug. */
  predicate FirstQualifying(data: seq<Fight>, i: nat)
    requires i < |data|
  {
    && Qualifies(data[i])
    && forall j :: 0 <= j < i ==> !(Qualifies(data[j]) && data[j].slug == data[i].slug)
  }

  /** The slugs of the kept fights among the first `n`. */
  function KeptSlugs(data: seq<Fight>, keep: seq<bool>, n: nat): set<string>
    requires n <= |data| == |keep|
  {
    if n == 0 then {}
    else KeptSlugs(data, keep, n - 1) + (if keep[n - 1] then {data[n - 1].slug} else {})
  }

  /** The events of the first `n` fights: one per kept fight whose slug no
      earlier kept fight had, in the order of those fights, dated by that
      fight. */
  function KeptEvents(data: seq<Fight>, keep: seq<bool>, n: nat): seq<Event>
    requires n <= |data| == |keep|
  {
    if n == 0 then []
    else
      var f := data[n - 1];
      KeptEvents(data, keep, n - 1)
        + (if keep[n - 1] && f.slug !in KeptSlugs(data, keep, n - 1)
           then [Event(f.date, f.slug)] else [])
  }

  /** The `(date, slug)` pairs `_get_dates_per_event` returns for `data`
      when no slug is too short. */
  function EventsOf(data: seq<Fight>): seq<Event>
  {
    KeptEvents(data, Marks(data), |data|)
  }

  lemma {:induction false} KeptSlugsMeaning(data: seq<Fight>, keep: seq<bool>, n: nat, s: string)
    requires n <= |data| == |keep|
    ensures s in KeptSlugs(data, keep, n) <==> exists j :: 0 <= j < n && keep[j] && data[j].slug == s
  {
    if n > 0 {
      KeptSlugsMeaning(data, keep, n - 1, s);
    }
  }

  /** The fights that become events are exactly the first qualifying fight
      of each slug. */
  lemma FirstQualifyingIsUnseen(data: seq<Fight>, i: nat)
    requires i < |data|
    ensures FirstQualifying(data, i)
        <==> Marks(data)[i] && data[i].slug !in KeptSlugs(data, Marks(data), i)
  {
    KeptSlugsMeaning(data, Marks(data), i, data[i].slug);
  }

  function EventSlugs(events: seq<Event>): set<string>
  {
    set k | 0 <= k < |events| :: events[k].slug
  }

  predicate DistinctSlugs(events: seq<Event>)
  {
    forall k, l :: 0 <= k < l < |events| ==> events[k].slug != events[l].slug
  }

  /** The grouping yields each kept slug exactly once. */
  lemma {:induction false} EventsAreKeptSlugs(data: seq<Fight>, keep: seq<bool>, n: nat)
    requires n <= |data| == |keep|
    ensures EventSlugs(KeptEvents(data, keep, n)) == KeptSlugs(data, keep, n)
    ensures DistinctSlugs(KeptEvents(data, keep, n))
  {
    if n > 0 {
      EventsAreKeptSlugs(data, keep, n - 1);
      var prev := KeptEvents(data, keep, n - 1);
      if keep[n - 1] && data[n - 1].slug !in KeptSlugs(data, keep, n - 1) {
        var e := Event(data[n - 1].date, data[n - 1].slug);
        assert KeptEvents(data, keep, n) == prev + [e];
        AppendNewSlug(prev, e);
      } else {
        assert KeptEvents(data, keep, n) == prev;
      }
    }
  }

  /** An event whose slug is new keeps the slugs distinct and adds its slug. */
  lemma AppendNewSlug(prev: seq<Event>, e: Event)
    requires DistinctSlugs(prev) && e.slug !in EventSlugs(prev)
    ensures EventSlugs(prev + [e]) == EventSlugs(prev) + {e.slug}
    ensures DistinctSlugs(prev + [e])
  {
    var all := prev + [e];
    forall s | s in EventSlugs(all) ensures s in EventSlugs(prev) + {e.slug} {
      var k :| 0 <= k < |all| && all[k].slug == s;
      if k < |prev| { assert prev[k].slug == s; }
    }
    forall s | s in EventSlugs(prev) + {e.slug} ensures s in EventSlugs(all) {
      if s == e.slug {
        assert all[|prev|].slug == s;
      } else {
        var k :| 0 <= k < |prev| && prev[k].slug == s;
        assert all[k].slug == s;
      }
    }
    forall k, l | 0 <= k < l < |all| ensures all[k].slug != all[l].slug {
      if l == |prev| {
        assert all[k].slug == prev[k].slug;
        assert prev[k].slug in EventSlugs(prev);
      } else {
        assert all[k] == prev[k] && all[l] == prev[l];
      }
    }
  }

  /** An ordered dictionary, as Python's dict keeps insertion order: the
      keys in the order they were first set, and their values. */
  predicate GroupsWellFormed(order: seq<string>, groups: map<string, seq<Fight>>)
  {
    forall k :: 0 <= k < |order| ==> order[k] in groups && groups[order[k]] != []
  }

  /** `dates_per_event`: the date of the first fight of each group, in key
      order. */
  function DatesPerEvent(order: seq<string>, groups: map<string, seq<Fight>>): (events: seq<Event>)
    requires GroupsWellFormed(order, groups)
    ensures |events| == |order|
  {
    seq(|order|, k requires 0 <= k < |order| => Event(groups[order[k]][0].date, order[k]))
  }

  /** Appending a fight to an existing group keeps every group's first
      fight, so the dated events do not change. */
  lemma DatesPerEventAppend(order: seq<string>, groups: map<string, seq<Fight>>, slug: string, f: Fight)
    requires GroupsWellFormed(order, groups) && slug in groups
    ensures GroupsWellFormed(order, groups[slug := groups[slug] + [f]])
    ensures DatesPerEvent(order, groups[slug := groups[slug] + [f]]) == DatesPerEvent(order, groups)
  {
    var groups' := groups[slug := groups[slug] + [f]];
    forall k | 0 <= k < |order|
      ensures groups'[order[k]][0] == groups[order[k]][0]
    {
      if order[k] == slug {
        assert groups'[slug] == groups[slug] + [f];
      }
    }
  }

  /** A new group adds one event, dated by its first fight, at the end. */
  lemma DatesPerEventNew(order: seq<string>, groups: map<string, seq<Fight>>, slug: string, f: Fight)
    requires GroupsWellFormed(order, groups) && slug !in groups
    ensures GroupsWellFormed(order + [slug], groups[slug := [f]])
    ensures DatesPerEvent(order + [slug], groups[slug := [f]])
         == DatesPerEvent(order, groups) + [Event(f.date, slug)]
  {
    var groups' := groups[slug := [f]];
    forall k | 0 <= k < |order|
      ensures groups'[order[k]] == groups[order[k]]
    {
      assert order[k] in groups;
    }
  }

  /** The dictionary loop of `_get_dates_per_event`, given which fights pass
      the `is_event_numbered(slug) and isMain` test. */
  method GroupKept(data: seq<Fight>, keep: seq<bool>) returns (events: seq<Event>)
    requires |keep| == |data|
    ensures events == KeptEvents(data, keep, |data|)
  {
    var groups: map<string, seq<Fight>> := map[];
    var order: seq<string> := [];
    var i := 0;
    while i < |data|
      invariant 0 <= i <= |data|
      invariant GroupsWellFormed(order, groups)
      invariant groups.Keys == KeptSlugs(data, keep, i)
      invariant DatesPerEvent(order, groups) == KeptEvents(data, keep, i)
    {
      var fight := data[i];
      ghost var prevSlugs := KeptSlugs(data, keep, i);
      if keep[i] {
        if fight.slug in groups {
          DatesPerEventAppend(order, groups, fight.slug, fight);
          groups := groups[fight.slug := groups[fight.slug] + [fight]];
          assert groups.Keys == prevSlugs;
        } else {
          DatesPerEventNew(order, groups, fight.slug, fight);
          groups := groups[fight.slug := [fight]];
          order := order + [fight.slug];
          assert groups.Keys == prevSlugs + {fight.slug};
        }
      }
      i := i + 1;
    }
    events := DatesPerEvent(order, groups);
  }

  /** The test one fight goes through: `is_event_numbered(slug) and isMain`. */
  method MarkFight(f: Fight) returns (r: Result<bool>)
    ensures r.Err? <==> ShortSlug(f)
    ensures r.Err? ==> r.error == NotEnoughTokens(f.slug)
    ensures r.Ok? ==> r.value == Qualifies(f)
  {
    var numbered := IsEventNumbered(f.slug);
    if numbered.Err? {
      return Err(numbered.error);
    }
    return Ok(numbered.value && f.isMain);
  }

  lemma MarkStep(data: seq<Fight>, keep: seq<bool>, v: bool)
    requires |keep| < |data|
    requires forall j :: 0 <= j < |keep| ==> !ShortSlug(data[j]) && keep[j] == Qualifies(data[j])
    requires !ShortSlug(data[|keep|]) && v == Qualifies(data[|keep|])
    ensures forall j :: 0 <= j < |keep| + 1 ==>
      !ShortSlug(data[j]) && (keep + [v])[j] == Qualifies(data[j])
  {
  }

  lemma MarksAre(data: seq<Fight>, keep: seq<bool>)
    requires |keep| == |data|
    requires forall j :: 0 <= j < |data| ==> keep[j] == Qualifies(data[j])
    ensures keep == Marks(data)
  {
  }

  /** `SportsIoMMA._get_dates_per_event`. Every slug is checked before any
      is grouped; as a failing check discards the whole result, this order
      returns what the single loop of the source returns. */
  method GetDatesPerEvent(data: seq<Fight>) returns (r: Result<seq<Event>>)
    ensures r.Err? <==> TeamHasShortSlug(data)
    ensures r.Err? ==> FirstShortSlug(data, r.error)
    ensures r.Ok? ==> r.value == EventsOf(data)
  {
    var keep: seq<bool> := [];
    var i := 0;
    while i < |data|
      invariant 0 <= i <= |data| && |keep| == i
      invariant forall j :: 0 <= j < i ==> !ShortSlug(data[j]) && keep[j] == Qualifies(data[j])
    {
      var mark := MarkFight(data[i]);
      if mark.Err? {
        assert ShortSlug(data[i]);
        return Err(mark.error);
      }
      MarkStep(data, keep, mark.value);
      keep := keep + [mark.value];
      i := i + 1;
    }
    MarksAre(data, keep);
    var events := GroupKept(data, keep);
    return Ok(events);
  }

  /** The home and away names of a slug, or None when it has no ":" or no
      "vs.": the text between the first ":" and the first "vs.", and the
      text after that "vs.", both stripped. */
  function SplitSlug(slug: string): (r: Option<(string, string)>)
    ensures r.None? <==> !Contains(slug, ":") || !Contains(slug, "vs.")
    ensures r.Some? ==> Trimmed(r.value.0) && Trimmed(r.value.1)
  {
    var colonPos, vsPos := Find(slug, ":"), Find(slug, "vs.");
    if colonPos == -1 || vsPos == -1 then None
    else Some(NamesAt(slug, colonPos, vsPos))
  }

  /** The names `_create_match` cuts out of a slug, given where ":" and
      "vs." start: the text between them and the text after "vs.", each
      stripped. */
  function NamesAt(slug: string, colonPos: int, vsPos: int): (names: (string, string))
    ensures Trimmed(names.0) && Trimmed(names.1)
  {
    (Strip(Slice(slug, colonPos + 1, vsPos)), Strip(Slice(slug, vsPos + 3, |slug|)))
  }

  /** `Find` returns a position exactly when it is the first occurrence. */
  lemma FindIs(s: string, pat: string, r: nat)
    requires OccursAt(s, pat, r)
    requires forall i :: 0 <= i < r ==> !OccursAt(s, pat, i)
    ensures Find(s, pat) == r
  {
    assert Contains(s, pat);
  }

  /** A string none of whose characters starts `pat` does not contain it. */
  lemma NotContainsFirst(s: string, pat: string)
    requires pat != []
    requires forall i :: 0 <= i < |s| ==> s[i] != pat[0]
    ensures !Contains(s, pat)
  {
    forall i | 0 <= i <= |s|
      ensures !OccursAt(s, pat, i)
    {
      if i < |s| && i + |pat| <= |s| {
        assert s[i..i + |pat|][0] == s[i];
      }
    }
  }

  /** Gluing two strings without "vs." around a character that is not one
      of 'v', 's', '.' gives a string without "vs.". */
  lemma NoVsAcross(a: string, c: char, b: string)
    requires !Contains(a, "vs.") && !Contains(b, "vs.")
    requires c != 'v' && c != 's' && c != '.'
    ensures !Contains(a + [c] + b, "vs.")
  {
    forall i | 0 <= i <= |a + [c] + b|
      ensures !OccursAt(a + [c] + b, "vs.", i)
    {
      NoVsAt(a, c, b, i);
    }
  }

  /** One position of `NoVsAcross`: a window inside `a`, inside `b`, or
      over `c`. */
  lemma NoVsAt(a: string, c: char, b: string, i: int)
    requires !Contains(a, "vs.") && !Contains(b, "vs.")
    requires c != 'v' && c != 's' && c != '.'
    ensures !OccursAt(a + [c] + b, "vs.", i)
  {
    var s := a + [c] + b;
    if 0 <= i && i + 3 <= |s| {
      if i + 3 <= |a| {
        WindowInLeft(a, c, b, i);
        assert !OccursAt(a, "vs.", i);
      } else if i > |a| {
        WindowInRight(a, c, b, i);
        assert !OccursAt(b, "vs.", i - |a| - 1);
      } else {
        WindowOverMiddle(a, c, b, i);
      }
    }
  }

  lemma WindowInLeft(a: string, c: char, b: string, i: nat)
    requires i + 3 <= |a|
    ensures (a + [c] + b)[i..i + 3] == a[i..i + 3]
  {
  }

  lemma WindowInRight(a: string, c: char, b: string, i: nat)
    requires |a| < i && i + 3 <= |a| + 1 + |b|
    ensures (a + [c] + b)[i..i + 3] == b[i - |a| - 1..i - |a| + 2]
  {
  }

  lemma WindowOverMiddle(a: string, c: char, b: string, i: nat)
    requires i <= |a| < i + 3 <= |a| + 1 + |b|
    ensures (a + [c] + b)[i..i + 3][|a| - i] == c
  {
  }

  /** The first ":" after a prefix without one is right after it. */
  lemma FirstColonAfter(prefix: string, tail: string)
    requires !Contains(prefix, ":")
    ensures Find(prefix + ":" + tail, ":") == |prefix|
  {
    var s := prefix + ":" + tail;
    assert s[|prefix|..|prefix| + 1] == ":";
    forall i | 0 <= i < |prefix|
      ensures !OccursAt(s, ":", i)
    {
      assert s[i..i + 1] == prefix[i..i + 1];
      assert !OccursAt(prefix, ":", i);
    }
    FindIs(s, ":", |prefix|);
  }

  /** The first "vs." after a head that ends in a space and has no "vs."
      is right after it. */
  lemma FirstVsAfter(head: string, tail: string)
    requires !Contains(head, "vs.") && head != [] && head[|head| - 1] == ' '
    ensures Find(head + "vs." + tail, "vs.") == |head|
  {
    var s := head + "vs." + tail;
    assert s[|head|..|head| + 3] == "vs.";
    forall i | 0 <= i < |head|
      ensures !OccursAt(s, "vs.", i)
    {
      if i + 3 <= |head| {
        assert s[i..i + 3] == head[i..i + 3];
        assert !OccursAt(head, "vs.", i);
      } else {
        assert s[i..i + 3][|head| - 1 - i] == ' ';
      }
    }
    FindIs(s, "vs.", |head|);
  }

  /** Where `find` locates ":" and "vs." in a title
      "<prefix>: <home> vs. <away>". */
  lemma TitlePositions(s: string, prefix: string, home: string, away: string)
    requires s == prefix + ": " + home + " vs. " + away
    requires !Contains(prefix, ":") && !Contains(prefix, "vs.") && !Contains(home, "vs.")
    ensures Find(s, ":") == |prefix|
    ensures Find(s, "vs.") == |prefix| + |home| + 3
  {
    var head := prefix + ": " + home + " ";
    assert s == prefix + ":" + (" " + home + " vs. " + away);
    FirstColonAfter(prefix, " " + home + " vs. " + away);
    assert !Contains(head, "vs.") by {
      NotContainsFirst([], "vs.");
      NoVsAcross(prefix, ':', []);
      assert prefix + [':'] + [] == prefix + ":";
      NoVsAcross(prefix + ":", ' ', home);
      assert prefix + ":" + [' '] + home == prefix + ": " + home;
      NoVsAcross(prefix + ": " + home, ' ', []);
      assert prefix + ": " + home + [' '] + [] == head;
    }
    assert s == head + "vs." + (" " + away);
    FirstVsAfter(head, " " + away);
  }

  /** `NamesAt` strips the two stretches it cuts out. */
  lemma NamesOfParts(s: string, c: int, v: int, h: string, a: string, home: string, away: string)
    requires Slice(s, c + 1, v) == h && Slice(s, v + 3, |s|) == a
    requires Strip(h) == home && Strip(a) == away
    ensures NamesAt(s, c, v) == (home, away)
  {
  }

  /** The two stretches of a title around " vs. " that hold the names. */
  lemma TitleParts(s: string, prefix: string, home: string, away: string, c: nat, v: nat)
    requires s == prefix + ": " + home + " vs. " + away
    requires c == |prefix| && v == |prefix| + |home| + 3
    ensures Slice(s, c + 1, v) == " " + home + " "
    ensures Slice(s, v + 3, |s|) == " " + away + ""
  {
    assert s == prefix + ":" + (" " + home + " ") + "vs." + (" " + away);
    assert s[v + 3..|s|] == " " + away + "";
  }

  /** The slug of a title "<prefix>: <home> vs. <away>" splits back into
      the two names, when the prefix has no ":" and neither the prefix nor
      the home name contains "vs.". */
  lemma SplitSlugOfTitle(prefix: string, home: string, away: string)
    requires !Contains(prefix, ":") && !Contains(prefix, "vs.") && !Contains(home, "vs.")
    requires Trimmed(home) && Trimmed(away)
    ensures SplitSlug(prefix + ": " + home + " vs. " + away) == Some((home, away))
  {
    var s := prefix + ": " + home + " vs. " + away;
    var c: nat, v: nat := |prefix|, |prefix| + |home| + 3;
    assert Find(s, ":") == c && Find(s, "vs.") == v by {
      TitlePositions(s, prefix, home, away);
    }
    TitleParts(s, prefix, home, away, c, v);
    StripPadded(" ", home, " ");
    StripPadded(" ", away, "");
    NamesOfParts(s, c, v, " " + home + " ", " " + away + "", home, away);
    SplitSlugAt(s, c, v, home, away);
  }

  /** `SplitSlug` cuts at the positions `find` reports. */
  lemma SplitSlugAt(s: string, c: nat, v: nat, home: string, away: string)
    requires Find(s, ":") == c && Find(s, "vs.") == v
    requires NamesAt(s, c, v) == (home, away)
    ensures SplitSlug(s) == Some((home, away))
  {
  }

  /** The worked example: "UFC 311: Jones vs. Miocic". */
  lemma SplitSlugExample(slug: string)
    requires slug == "UFC 311: Jones vs. Miocic"
    ensures SplitSlug(slug) == Some(("Jones", "Miocic"))
  {
    var prefix, home, away := "UFC 311", "Jones", "Miocic";
    assert prefix + ": " + home + " vs. " + away == slug;
    NotContainsFirst(prefix, ":");
    NotContainsFirst(prefix, "vs.");
    NotContainsFirst(home, "vs.");
    PrintableNotSpace(home[0]);
    PrintableNotSpace(home[4]);
    PrintableNotSpace(away[0]);
    PrintableNotSpace(away[5]);
    SplitSlugOfTitle(prefix, home, away);
  }

  /** `SportsIoMMA._create_match`: the names come out of the slug around the
      positions of ":" and "vs.". */
  function MmaMatch(slug: string, colonPos: int, vsPos: int, date: Instant, now: int): (m: Match)
    ensures m.sport == "MMA" && m.league == "UFC" && m.start == date && m.details == ""
    ensures (m.home, m.away) == NamesAt(slug, colonPos, vsPos)
    ensures m.createdOn == now && SportAbr(m) == "UFC"
  {
    var names := NamesAt(slug, colonPos, vsPos);
    NewMatch("MMA", names.0, names.1, date, "UFC", "", now)
  }

  /** One `(date, slug)` pair of the loop in `SportsIoMMA.__call__`: None
      when the slug lacks ":" or "vs." and the loop skips it; otherwise the
      match between the two names the slug splits into. */
  function EventMatch(e: Event, now: int): (r: Option<Match>)
    ensures r.None? <==> SplitSlug(e.slug).None?
    ensures r.Some? ==> && r.value.home == SplitSlug(e.slug).value.0
                        && r.value.away == SplitSlug(e.slug).value.1
                        && r.value.start == e.date
                        && r.value.sport == "MMA" && r.value.league == "UFC"
  {
    var colonPos, vsPos := Find(e.slug, ":"), Find(e.slug, "vs.");
    if colonPos == -1 || vsPos == -1 then None
    else Some(MmaMatch(e.slug, colonPos, vsPos, e.date, now))
  }

  /** The outcome of each event of one team, in order. */
  function EventOutcomes(events: seq<Event>, now: int): (opts: seq<Option<Match>>)
    ensures |opts| == |events|
  {
    seq(|events|, k requires 0 <= k < |events| => EventMatch(events[k], now))
  }

  /** The matches of one team: one per event whose slug splits, in order. */
  function EventMatches(events: seq<Event>, now: int): (ms: seq<Match>)
    ensures |ms| <= |events|
    ensures forall m :: m in ms ==> m.sport == "MMA" && m.league == "UFC"
  {
    Somes(EventOutcomes(events, now))
  }

  /** When every slug splits, the matches line up with the events and carry
      the names each slug splits into; otherwise some event is dropped. */
  lemma EventMatchesNames(events: seq<Event>, now: int)
    ensures |EventMatches(events, now)| == |events|
        <==> forall k :: 0 <= k < |events| ==> SplitSlug(events[k].slug).Some?
    ensures |EventMatches(events, now)| == |events| ==>
      forall k :: 0 <= k < |events| ==>
        SplitSlug(events[k].slug)
          == Some((EventMatches(events, now)[k].home, EventMatches(events, now)[k].away))
  {
    var opts, ms := EventOutcomes(events, now), EventMatches(events, now);
    SomesAligned(opts);
    forall k | 0 <= k < |events|
      ensures opts[k].Some? <==> SplitSlug(events[k].slug).Some?
    {
      assert opts[k] == EventMatch(events[k], now);
    }
    if |ms| == |events| {
      forall k | 0 <= k < |events|
        ensures SplitSlug(events[k].slug) == Some((ms[k].home, ms[k].away))
      {
        assert opts[k] == EventMatch(events[k], now) == Some(ms[k]);
      }
    }
  }

  /** One step of the skip loop: an event whose slug splits appends its
      match, and any other event appends nothing. */
  lemma EventMatchesSnoc(events: seq<Event>, e: Event, now: int)
    ensures EventMatches(events + [e], now)
         == EventMatches(events, now)
            + (if SplitSlug(e.slug).Some? then [EventMatch(e, now).value] else [])
  {
    var opts := EventOutcomes(events + [e], now);
    assert opts[..|events|] == EventOutcomes(events, now);
    assert opts[|events|] == EventMatch(e, now);
    if SplitSlug(e.slug).Some? {
      SomesSnoc(opts);
    } else {
      SomesSnocNone(opts);
    }
  }

  /** The matches are exactly those of the events whose slug splits, in
      event order: each comes from such an event, at increasing positions,
      and every such event contributes one. */
  lemma EventMatchesKept(events: seq<Event>, now: int) returns (idx: seq<nat>)
    ensures |idx| == |EventMatches(events, now)|
    ensures forall j :: 0 <= j < |idx| ==>
      && idx[j] < |events| && SplitSlug(events[idx[j]].slug).Some?
      && EventMatches(events, now)[j] == EventMatch(events[idx[j]], now).value
    ensures forall j, l :: 0 <= j < l < |idx| ==> idx[j] < idx[l]
    ensures forall k :: 0 <= k < |events| && SplitSlug(events[k].slug).Some? ==> k in idx
  {
    var opts := EventOutcomes(events, now);
    idx := SomesIsSubsequence(opts);
    assert forall k :: 0 <= k < |events| ==> opts[k] == EventMatch(events[k], now);
  }

  /** What `SportsIoMMA.__call__` returns when no slug is too short. */
  function MmaReference(responses: seq<seq<Fight>>, now: int): seq<Match>
  {
    if responses == [] then []
    else
      var last := responses[|responses| - 1];
      MmaReference(responses[..|responses| - 1], now) + EventMatches(EventsOf(last), now)
  }

  /** Every MMA match is a UFC match. */
  lemma {:induction false} MmaReferenceIsUfc(responses: seq<seq<Fight>>, now: int)
    ensures forall m :: m in MmaReference(responses, now) ==> m.sport == "MMA" && m.league == "UFC"
  {
    if responses != [] {
      MmaReferenceIsUfc(responses[..|responses| - 1], now);
    }
  }

  /** One more team appends its matches. */
  lemma MmaReferenceStep(responses: seq<seq<Fight>>, k: nat, now: int)
    requires k < |responses|
    ensures MmaReference(responses[..k + 1], now)
         == MmaReference(responses[..k], now) + EventMatches(EventsOf(responses[k]), now)
  {
    assert responses[..k + 1][..k] == responses[..k];
  }

  /** Some fight of one team has a slug `is_event_numbered` rejects. */
  predicate TeamHasShortSlug(data: seq<Fight>)
  {
    exists i :: 0 <= i < |data| && ShortSlug(data[i])
  }

  predicate HasShortSlug(responses: seq<seq<Fight>>)
  {
    exists k :: 0 <= k < |responses| && TeamHasShortSlug(responses[k])
  }

  /** `e` is the error raised by the first fight whose slug is too short. */
  predicate FirstShortSlug(data: seq<Fight>, e: Error)
  {
    exists i :: && 0 <= i < |data| && ShortSlug(data[i]) && e == NotEnoughTokens(data[i].slug)
                && forall j :: 0 <= j < i ==> !ShortSlug(data[j])
  }

  /** `e` is the error of the first team with a slug too short. */
  predicate FirstTeamShortSlug(responses: seq<seq<Fight>>, e: Error)
  {
    exists k :: && 0 <= k < |responses| && FirstShortSlug(responses[k], e)
                && forall j :: 0 <= j < k ==> !TeamHasShortSlug(responses[j])
  }

  /** `SportsIoMMA.__call__`. */
  method MmaCall(responses: seq<seq<Fight>>, now: int) returns (r: Result<seq<Match>>)
    ensures r.Err? <==> HasShortSlug(responses)
    ensures r.Err? ==> FirstTeamShortSlug(responses, r.error)
    ensures r.Ok? ==> r.value == MmaReference(responses, now)
  {
    var matches: seq<Match> := [];
    var k := 0;
    while k < |responses|
      invariant 0 <= k <= |responses|
      invariant forall j :: 0 <= j < k ==> !TeamHasShortSlug(responses[j])
      invariant matches == MmaReference(responses[..k], now)
    {
      var team := MmaTeam(responses[k], now);
      if team.Err? {
        assert FirstTeamShortSlug(responses, team.error) by {
          assert FirstShortSlug(responses[k], team.error);
        }
        return Err(team.error);
      }
      NoShortSlugStep(responses, k);
      MmaReferenceStep(responses, k, now);
      matches := matches + team.value;
      k := k + 1;
    }
    assert responses[..k] == responses;
    return Ok(matches);
  }

  /** The matches of one team's fights: its events, split into names. */
  method MmaTeam(data: seq<Fight>, now: int) returns (r: Result<seq<Match>>)
    ensures r.Err? <==> TeamHasShortSlug(data)
    ensures r.Err? ==> FirstShortSlug(data, r.error)
    ensures r.Ok? ==> r.value == EventMatches(EventsOf(data), now)
  {
    var events := GetDatesPerEvent(data);
    if events.Err? {
      return Err(events.error);
    }
    return Ok(EventMatches(events.value, now));
  }

  lemma NoShortSlugStep(responses: seq<seq<Fight>>, k: nat)
    requires k < |responses| && !TeamHasShortSlug(responses[k])
    requires forall j :: 0 <= j < k ==> !TeamHasShortSlug(responses[j])
    ensures forall j :: 0 <= j < k + 1 ==> !TeamHasShortSlug(responses[j])
  {
  }
}

=== FILE: aggregation.dfy ===
/** `AllSportsService` of `services/api_sports_io.py`: the matches of the
    active sports are fetched once, in the order of the sports; a call
    keeps those of one time frame, sorts them by start, and prints one card
    per match, skipping a card equal to the one just printed. */
module Aggregation {
  import opened Common
  import opened Domain
  import opened Adapters
  import opened Factory
  import opened Lists

  // ------------------------------------------------------------- fetching

  /** What the providers answered: one decoded `response` list per team of
      each sport, in the order of the configured teams. */
  datatype Responses = Responses(
    football: seq<seq<FootballFixture>>,
    mma: seq<seq<Fight>>,
    nba: seq<seq<NbaGame>>)

  /** The matches an adapter returns when it does not fail. */
  function ServiceMatches(a: Adapter, responses: Responses, now: int): seq<Match>
  {
    match a
    case RapidApiFootball => FootballCall(responses.football, now)
    case SportsIoMma => MmaReference(responses.mma, now)
    case SportsIoNba => NbaCall(responses.nba, now)
  }

  /** Whether an adapter fails: only the MMA one can, on a short slug. */
  predicate ServiceFails(a: Adapter, responses: Responses)
  {
    a == SportsIoMma && HasShortSlug(responses.mma)
  }

  /** Calling the adapter instance the factory built. */
  method RunService(s: Service, responses: Responses, now: int) returns (r: Result<seq<Match>>)
    ensures r.Err? <==> ServiceFails(s.adapter, responses)
    ensures r.Err? ==> FirstTeamShortSlug(responses.mma, r.error)
    ensures r.Ok? ==> r.value == ServiceMatches(s.adapter, responses, now)
  {
    match s.adapter
    case RapidApiFootball =>
      r := Ok(FootballCall(responses.football, now));
    case SportsIoMma =>
      r := MmaCall(responses.mma, now);
    case SportsIoNba =>
      r := Ok(NbaCall(responses.nba, now));
  }

  /** Fetching one sport fails when the factory does, or when the adapter
      does. */
  predicate SportFails(section: map<string, SportData>, name: string, responses: Responses)
  {
    SelectService(section, name).Err?
      || ServiceFails(SelectService(section, name).value.adapter, responses)
  }

  /** The error fetching one sport ends with: the factory's, or the MMA
      adapter's. */
  predicate SportError(section: map<string, SportData>, name: string, responses: Responses, e: Error)
  {
    if SelectService(section, name).Err? then e == SelectService(section, name).error
    else FirstTeamShortSlug(responses.mma, e)
  }

  /** The matches of one sport that does not fail. */
  function SportMatches(section: map<string, SportData>, name: string,
                        responses: Responses, now: int): seq<Match>
    requires !SportFails(section, name, responses)
  {
    ServiceMatches(SelectService(section, name).value.adapter, responses, now)
  }

  /** `SportApiFactory()(config, sport)()`. */
  method FetchSport(section: map<string, SportData>, name: string, responses: Responses, now: int)
    returns (r: Result<seq<Match>>)
    ensures r.Err? <==> SportFails(section, name, responses)
    ensures r.Err? ==> SportError(section, name, responses, r.error)
    ensures r.Ok? ==> r.value == SportMatches(section, name, responses, now)
  {
    var service := SelectService(section, name);
    if service.Err? {
      return Err(service.error);
    }
    r := RunService(service.value, responses, now);
  }

  /** Some sport among `names` fails. */
  predicate AnyFails(section: map<string, SportData>, names: seq<string>, responses: Responses)
  {
    exists i :: 0 <= i < |names| && SportFails(section, names[i], responses)
  }

  /** The matches of `names`, sport after sport, when none fails. */
  function AllMatches(section: map<string, SportData>, names: seq<string>,
                      responses: Responses, now: int): seq<Match>
    requires !AnyFails(section, names, responses)
  {
    if names == [] then []
    else
      var init := names[..|names| - 1];
      assert !AnyFails(section, init, responses) by {
        forall i | 0 <= i < |init| ensures !SportFails(section, init[i], responses) {
          assert init[i] == names[i];
        }
      }
      AllMatches(section, init, responses, now)
      + SportMatches(section, names[|names| - 1], responses, now)
  }

  /** `AllSportsService._get_matches`: the first failing sport ends the
      fetch with its error. */
  method GetMatches(section: map<string, SportData>, names: seq<string>, responses: Responses, now: int)
    returns (r: Result<seq<Match>>)
    ensures r.Err? <==> AnyFails(section, names, responses)
    ensures r.Err? ==> exists i :: && 0 <= i < |names|
                                   && SportError(section, names[i], responses, r.error)
                                   && SportFails(section, names[i], responses)
                                   && !AnyFails(section, names[..i], responses)
    ensures r.Ok? ==> r.value == AllMatches(section, names, responses, now)
  {
    var matches: seq<Match> := [];
    var i := 0;
    while i < |names|
      invariant 0 <= i <= |names|
      invariant !AnyFails(section, names[..i], responses)
      invariant matches == AllMatches(section, names[..i], responses, now)
    {
      var got := FetchSport(section, names[i], responses, now);
      if got.Err? {
        assert AnyFails(section, names, responses) by {
          assert SportFails(section, names[i], responses);
        }
        return Err(got.error);
      }
      NoneFailsStep(section, names, responses, i);
      AllMatchesStep(section, names, responses, now, i);
      matches := matches + got.value;
      i := i + 1;
    }
    assert names[..i] == names;
    return Ok(matches);
  }

  lemma NoneFailsStep(section: map<string, SportData>, names: seq<string>, responses: Responses, i: nat)
    requires i < |names| && !SportFails(section, names[i], responses)
    requires !AnyFails(section, names[..i], responses)
    ensures !AnyFails(section, names[..i + 1], responses)
  {
    var next := names[..i + 1];
    forall j | 0 <= j < |next|
      ensures !SportFails(section, next[j], responses)
    {
      if j < i {
        assert next[j] == names[..i][j];
      }
    }
  }

  lemma AllMatchesStep(section: map<string, SportData>, names: seq<string>, responses: Responses,
                       now: int, i: nat)
    requires i < |names| && !AnyFails(section, names[..i + 1], responses)
    ensures !AnyFails(section, names[..i], responses)
    ensures !SportFails(section, names[i], responses)
    ensures AllMatches(section, names[..i + 1], responses, now)
         == AllMatches(section, names[..i], responses, now)
            + SportMatches(section, names[i], responses, now)
  {
    assert names[..i + 1][..i] == names[..i];
    assert names[..i + 1][i] == names[i];
    forall j | 0 <= j < i
      ensures !SportFails(section, names[..i][j], responses)
    {
      assert names[..i][j] == names[..i + 1][j];
    }
  }

  /** Adding one sport at the end of the names. */
  lemma AllMatchesSnoc(section: map<string, SportData>, names: seq<string>, name: string,
                       responses: Responses, now: int)
    requires !AnyFails(section, names + [name], responses)
    ensures !AnyFails(section, names, responses) && !SportFails(section, name, responses)
    ensures AllMatches(section, names + [name], responses, now)
         == AllMatches(section, names, responses, now) + SportMatches(section, name, responses, now)
  {
    var all := names + [name];
    assert all[..|all| - 1] == names;
    assert all[|names|] == name;
    forall j | 0 <= j < |names|
      ensures !SportFails(section, names[j], responses)
    {
      assert names[j] == all[j];
    }
  }

  /** Three sports fail together exactly when one of them fails. */
  lemma AnyFailsOfThree(section: map<string, SportData>, a: string, b: string, c: string,
                        responses: Responses)
    ensures AnyFails(section, [a, b, c], responses)
        <==> || SportFails(section, a, responses)
             || SportFails(section, b, responses)
             || SportFails(section, c, responses)
  {
    var names := [a, b, c];
    if SportFails(section, a, responses) {
      assert SportFails(section, names[0], responses);
    } else if SportFails(section, b, responses) {
      assert SportFails(section, names[1], responses);
    } else if SportFails(section, c, responses) {
      assert SportFails(section, names[2], responses);
    }
  }

  /** The football block yields the football adapter's matches. */
  lemma FootballSport(section: map<string, SportData>, responses: Responses, now: int)
    requires "football" in section
    ensures !SportFails(section, "football", responses)
    ensures SportMatches(section, "football", responses, now) == FootballCall(responses.football, now)
  {
    assert SelectService(section, "football").value.adapter == RapidApiFootball;
  }

  /** The mma block yields the MMA adapter's matches, or its failure. */
  lemma MmaSport(section: map<string, SportData>, responses: Responses, now: int)
    requires "mma" in section
    ensures SportFails(section, "mma", responses) <==> HasShortSlug(responses.mma)
    ensures !HasShortSlug(responses.mma) ==>
      SportMatches(section, "mma", responses, now) == MmaReference(responses.mma, now)
  {
    assert SelectService(section, "mma").value.adapter == SportsIoMma;
  }

  /** The nba block yields the NBA adapter's matches. */
  lemma NbaSport(section: map<string, SportData>, responses: Responses, now: int)
    requires "nba" in section
    ensures !SportFails(section, "nba", responses)
    ensures SportMatches(section, "nba", responses, now) == NbaCall(responses.nba, now)
  {
    assert SelectService(section, "nba").value.adapter == SportsIoNba;
  }

  /** A configuration with a block for each active sport: the fetch fails
      exactly when an MMA slug is too short, and otherwise returns the
      football, MMA and NBA matches in that order. */
  lemma ActiveMatches(section: map<string, SportData>, responses: Responses, now: int)
    requires "football" in section && "mma" in section && "nba" in section
    ensures AnyFails(section, Active, responses) <==> HasShortSlug(responses.mma)
    ensures !AnyFails(section, Active, responses) ==>
      AllMatches(section, Active, responses, now)
        == FootballCall(responses.football, now) + MmaReference(responses.mma, now)
           + NbaCall(responses.nba, now)
  {
    ActiveFails(section, responses, now);
    if !HasShortSlug(responses.mma) {
      ActiveCollects(section, responses, now);
    }
  }

  lemma ActiveFails(section: map<string, SportData>, responses: Responses, now: int)
    requires "football" in section && "mma" in section && "nba" in section
    ensures AnyFails(section, Active, responses) <==> HasShortSlug(responses.mma)
  {
    FootballSport(section, responses, now);
    MmaSport(section, responses, now);
    NbaSport(section, responses, now);
    AnyFailsOfThree(section, "football", "mma", "nba", responses);
  }

  lemma ActiveCollects(section: map<string, SportData>, responses: Responses, now: int)
    requires "football" in section && "mma" in section && "nba" in section
    requires !HasShortSlug(responses.mma)
    ensures !AnyFails(section, Active, responses)
    ensures AllMatches(section, Active, responses, now)
         == FootballCall(responses.football, now) + MmaReference(responses.mma, now)
            + NbaCall(responses.nba, now)
  {
    ActiveFails(section, responses, now);
    FootballSport(section, responses, now);
    MmaSport(section, responses, now);
    NbaSport(section, responses, now);
    AllMatchesOfThree(section, "football", "mma", "nba", responses, now);
  }

  /** Three sports that do not fail collect their matches in order. */
  lemma AllMatchesOfThree(section: map<string, SportData>, a: string, b: string, c: string,
                          responses: Responses, now: int)
    requires !AnyFails(section, [a, b, c], responses)
    ensures && !SportFails(section, a, responses)
            && !SportFails(section, b, responses)
            && !SportFails(section, c, responses)
    ensures AllMatches(section, [a, b, c], responses, now)
         == SportMatches(section, a, responses, now) + SportMatches(section, b, responses, now)
            + SportMatches(section, c, responses, now)
  {
    assert [a, b, c] == [a, b] + [c];
    AllMatchesSnoc(section, [a, b], c, responses, now);
    AllMatchesOfTwo(section, a, b, responses, now);
  }

  lemma AllMatchesOfTwo(section: map<string, SportData>, a: string, b: string,
                        responses: Responses, now: int)
    requires !AnyFails(section, [a, b], responses)
    ensures !SportFails(section, a, responses) && !SportFails(section, b, responses)
    ensures AllMatches(section, [a, b], responses, now)
         == SportMatches(section, a, responses, now) + SportMatches(section, b, responses, now)
  {
    assert [a, b] == [a] + [b];
    AllMatchesSnoc(section, [a], b, responses, now);
    AllMatchesOfOne(section, a, responses, now);
  }

  lemma AllMatchesOfOne(section: map<string, SportData>, a: string, responses: Responses, now: int)
    requires !AnyFails(section, [a], responses)
    ensures !SportFails(section, a, responses)
    ensures AllMatches(section, [a], responses, now) == SportMatches(section, a, responses, now)
  {
    assert [a] == [] + [a];
    AllMatchesSnoc(section, [], a, responses, now);
  }

  /** A configuration without the football block fails on football, before
      any provider is asked. */
  lemma MissingFootballBlock(section: map<string, SportData>, responses: Responses, now: int)
    requires "football" !in section
    ensures SportFails(section, Active[0], responses)
    ensures SportError(section, Active[0], responses, MissingSportConfig("football"))
  {
    ActiveSportsAdapters();
  }

  // ------------------------------------------------- filtering and sorting

  /** The loop of `__call__` that keeps the matches meeting the frame. */
  function SelectFrame(matches: seq<Match>, timeFrame: string): seq<Match>
  {
    Filter(matches, m => MeetsTimeFrame(m, timeFrame))
  }

  /** The sort key, `lambda x: x.start`. */
  function StartKey(m: Match): int
  {
    m.start.wallClock
  }

  /** `selected_matches.sort(key=lambda x: x.start)`. */
  function SortByStart(ms: seq<Match>): seq<Match>
  {
    SortBy(ms, StartKey)
  }

  /** Whatever stable sort Python runs, its result is this one: a sequence
      sorted by start that keeps the order of the matches of each start is
      `SortByStart`. */
  lemma AnyStableSortIsSortByStart(ms: seq<Match>, other: seq<Match>)
    requires SortedBy(other, StartKey)
    requires forall t :: WithKey(other, StartKey, t) == WithKey(ms, StartKey, t)
    ensures other == SortByStart(ms)
  {
    SortBySorted(ms, StartKey);
    forall t ensures WithKey(SortByStart(ms), StartKey, t) == WithKey(ms, StartKey, t) {
      SortByStable(ms, StartKey, t);
    }
    SortedUnique(other, SortByStart(ms), StartKey);
  }

  // --------------------------------------------------------------- cards

  /** `_remove_duplicated_matches`: not implemented in the source, it
      returns the matches it is given. */
  function RemoveDuplicatedMatches(ms: seq<Match>): (r: seq<Match>)
    ensures r == ms
  {
    ms
  }

  /** `_print_cards`: the cards printed, in order. `previous` starts as ""
      and always ends an iteration equal to the card just looked at,
      printed or not. */
  method PrintCards(cards: seq<string>) returns (out: seq<string>)
    ensures out == Collapse(cards, "")
  {
    var previous := "";
    out := [];
    var i := 0;
    while i < |cards|
      invariant 0 <= i <= |cards|
      invariant previous == PreviousOf(cards, "", i)
      invariant out == Collapse(cards[..i], "")
    {
      var card := cards[i];
      CollapseStep(cards, "", i);
      if card != previous {
        previous := card;
        out := out + [card];
      }
      i := i + 1;
    }
    assert cards[..i] == cards;
  }

  // ------------------------------------------------------------- the call

  /** The labelled cards of `__call__`, one per match. */
  function Cards(ms: seq<Match>): (cards: seq<string>)
    ensures |cards| == |ms|
    ensures forall i :: 0 <= i < |ms| ==> cards[i] == MatchCard(ms[i], true)
  {
    seq(|ms|, i requires 0 <= i < |ms| => MatchCard(ms[i], true))
  }

  /** `AllSportsService.__call__(time_frame)`: the matches returned and the
      cards printed. The matches are those meeting the frame, each as often
      as fetched, sorted by start; matches with the same start keep their
      fetched order. */
  method Call(matches: seq<Match>, timeFrame: string)
    returns (selected: seq<Match>, printed: seq<string>)
    ensures SortedBy(selected, StartKey)
    ensures forall m ::
      multiset(selected)[m] == if MeetsTimeFrame(m, timeFrame) then multiset(matches)[m] else 0
    ensures forall t ::
      WithKey(selected, StartKey, t) == WithKey(SelectFrame(matches, timeFrame), StartKey, t)
    ensures printed == Collapse(Cards(selected), "")
  {
    var kept := SelectFrame(matches, timeFrame);
    var sorted := SortByStart(kept);
    SortBySorted(kept, StartKey);
    forall m
      ensures multiset(sorted)[m] == if MeetsTimeFrame(m, timeFrame) then multiset(matches)[m] else 0
    {
      SelectFrameCounts(matches, timeFrame, m);
    }
    forall t ensures WithKey(sorted, StartKey, t) == WithKey(kept, StartKey, t) {
      SortByStable(kept, StartKey, t);
    }
    selected := RemoveDuplicatedMatches(sorted);
    printed := PrintCards(Cards(selected));
  }

  /** The frame keeps every match meeting it, as often as it occurs, and no
      other match. */
  lemma SelectFrameCounts(matches: seq<Match>, timeFrame: string, m: Match)
    ensures multiset(SelectFrame(matches, timeFrame))[m]
         == if MeetsTimeFrame(m, timeFrame) then multiset(matches)[m] else 0
    ensures m in SelectFrame(matches, timeFrame) <==> m in matches && MeetsTimeFrame(m, timeFrame)
  {
    FilterCounts(matches, m => MeetsTimeFrame(m, timeFrame), m);
  }

  /** The printed cards have no equal neighbours, and as every card is
      non-empty, cards without equal neighbours are all printed. */
  lemma CallCards(selected: seq<Match>)
    ensures NoAdjacentDuplicates(Collapse(Cards(selected), ""))
    ensures NoAdjacentDuplicates(Cards(selected)) ==> Collapse(Cards(selected), "") == Cards(selected)
  {
    CollapseNoAdjacent(Cards(selected), "");
    if NoAdjacentDuplicates(Cards(selected)) {
      CollapseUnchanged(Cards(selected), "");
    }
  }
}

=== FILE: common.dfy ===
/** Error values and the result type shared by the whole model.

    The source raises Python exceptions; here each one becomes an `Err`
    carrying the reason, so that callers can see every failure path. */
module Common {

  /** The exceptions the modelled code can raise. */
  datatype Error =
      /** `company, event = slug.split()[:2]` on a slug with fewer than two
          whitespace-separated tokens (a ValueError in Python). */
    | NotEnoughTokens(slug: string)
      /** `Sports(sport_name)` on a name outside the enumeration. */
    | UnknownSport(name: string)
      /** `config.data["sport"][sport.value]` when the block is missing. */
    | MissingSportConfig(name: string)

  datatype Result<T> = Ok(value: T) | Err(error: Error)

  datatype Option<T> = None | Some(value: T)

  /** Concatenation of a sequence of sequences, in order. */
  function Flatten<T>(xss: seq<seq<T>>): (r: seq<T>)
    ensures |r| == TotalLength(xss)
  {
    if xss == [] then [] else Flatten(xss[..|xss| - 1]) + xss[|xss| - 1]
  }

  /** Sum of the lengths of the inner sequences. */
  function TotalLength<T>(xss: seq<seq<T>>): nat
  {
    if xss == [] then 0 else TotalLength(xss[..|xss| - 1]) + |xss[|xss| - 1]|
  }

  /** The values of the `Some` entries, in order. */
  function Somes<T>(opts: seq<Option<T>>): (r: seq<T>)
    ensures |r| <= |opts|
    ensures forall x :: x in r ==> Some(x) in opts
  {
    if opts == [] then []
    else
      var init := opts[..|opts| - 1];
      match opts[|opts| - 1]
      case None => Somes(init)
      case Some(x) => Somes(init) + [x]
  }

  /** Each value occurs in the result as often as its `Some` occurs in the
      entries; the `None` entries contribute nothing. */
  lemma {:induction false} SomesCounts<T>(opts: seq<Option<T>>)
    ensures forall x :: multiset(Somes(opts))[x] == multiset(opts)[Some(x)]
  {
    if opts != [] {
      var init, last := opts[..|opts| - 1], opts[|opts| - 1];
      SomesCounts(init);
      assert multiset(opts) == multiset(init) + multiset{last} by {
        assert opts == init + [last];
      }
      if last.Some? {
        SomesSnoc(opts);
      } else {
        SomesSnocNone(opts);
      }
    }
  }

  /** The result is the values of the `Some` entries at increasing
      positions, and every `Some` entry's position is among them: nothing is
      reordered, and only the `None` entries are dropped. */
  lemma SomesIsSubsequence<T>(opts: seq<Option<T>>) returns (idx: seq<nat>)
    ensures |idx| == |Somes(opts)|
    ensures forall j :: 0 <= j < |idx| ==> idx[j] < |opts| && opts[idx[j]] == Some(Somes(opts)[j])
    ensures forall j, l :: 0 <= j < l < |idx| ==> idx[j] < idx[l]
    ensures forall k :: 0 <= k < |opts| && opts[k].Some? ==> k in idx
  {
    idx := SomePositions(opts);
    SomePositionsOrdered(opts);
    SomePositionsValues(opts);
    SomePositionsCover(opts);
  }

  /** The positions of the `Some` entries, in order. */
  function SomePositions<T>(opts: seq<Option<T>>): seq<nat>
  {
    if opts == [] then []
    else
      var n := |opts| - 1;
      SomePositions(opts[..n]) + (if opts[n].Some? then [n] else [])
  }

  lemma {:induction false} SomePositionsOrdered<T>(opts: seq<Option<T>>)
    ensures forall j :: 0 <= j < |SomePositions(opts)| ==> SomePositions(opts)[j] < |opts|
    ensures forall j, l :: 0 <= j < l < |SomePositions(opts)| ==>
      SomePositions(opts)[j] < SomePositions(opts)[l]
  {
    if opts != [] {
      var n := |opts| - 1;
      SomePositionsOrdered(opts[..n]);
      var prev, p := SomePositions(opts[..n]), SomePositions(opts);
      assert p == prev + (if opts[n].Some? then [n] else []);
      assert forall j :: 0 <= j < |prev| ==> p[j] == prev[j] < n;
    }
  }

  lemma {:induction false} SomePositionsValues<T>(opts: seq<Option<T>>)
    ensures |SomePositions(opts)| == |Somes(opts)|
    ensures forall j :: 0 <= j < |SomePositions(opts)| ==>
      SomePositions(opts)[j] < |opts| && opts[SomePositions(opts)[j]] == Some(Somes(opts)[j])
  {
    if opts != [] {
      var n := |opts| - 1;
      var init := opts[..n];
      SomePositionsValues(init);
      SomePositionsOrdered(init);
      var prev, p := SomePositions(init), SomePositions(opts);
      if opts[n].Some? {
        SomesSnoc(opts);
      } else {
        SomesSnocNone(opts);
      }
      forall j | 0 <= j < |p|
        ensures p[j] < |opts| && opts[p[j]] == Some(Somes(opts)[j])
      {
        if j < |prev| {
          assert p[j] == prev[j] && init[prev[j]] == opts[prev[j]];
        }
      }
    }
  }

  lemma {:induction false} SomePositionsCover<T>(opts: seq<Option<T>>)
    ensures forall k :: 0 <= k < |opts| && opts[k].Some? ==> k in SomePositions(opts)
  {
    if opts != [] {
      var n := |opts| - 1;
      var init := opts[..n];
      SomePositionsCover(init);
      forall k | 0 <= k < |opts| && opts[k].Some?
        ensures k in SomePositions(opts)
      {
        if k < n {
          assert init[k] == opts[k];
        }
      }
    }
  }

  /** Nothing is dropped exactly when every entry is a `Some`, and then the
      values line up with the entries. */
  lemma SomesAligned<T>(opts: seq<Option<T>>)
    ensures |Somes(opts)| == |opts| <==> forall k :: 0 <= k < |opts| ==> opts[k].Some?
    ensures |Somes(opts)| == |opts| ==> forall k :: 0 <= k < |opts| ==> opts[k] == Some(Somes(opts)[k])
  {
    SomesFull(opts);
    if |Somes(opts)| == |opts| {
      SomesLineUp(opts);
    }
  }

  /** Nothing is dropped exactly when every entry is a `Some`. */
  lemma {:induction false} SomesFull<T>(opts: seq<Option<T>>)
    ensures |Somes(opts)| == |opts| <==> forall k :: 0 <= k < |opts| ==> opts[k].Some?
  {
    if opts != [] {
      var init := opts[..|opts| - 1];
      SomesFull(init);
      assert forall k :: 0 <= k < |init| ==> opts[k] == init[k];
    }
  }

  /** When every entry is a `Some`, the values line up with the entries. */
  lemma SomesLineUp<T>(opts: seq<Option<T>>)
    requires forall k :: 0 <= k < |opts| ==> opts[k].Some?
    ensures |Somes(opts)| == |opts|
    ensures forall k :: 0 <= k < |opts| ==> opts[k] == Some(Somes(opts)[k])
  {
    SomesFull(opts);
    forall k | 0 <= k < |opts| ensures opts[k] == Some(Somes(opts)[k]) {
      SomesAt(opts, k);
    }
  }

  /** When every entry up to the end is a `Some`, entry `k` holds the `k`-th
      value. */
  lemma {:induction false} SomesAt<T>(opts: seq<Option<T>>, k: nat)
    requires k < |opts|
    requires forall j :: 0 <= j < |opts| ==> opts[j].Some?
    ensures |Somes(opts)| == |opts| && opts[k] == Some(Somes(opts)[k])
    decreases |opts|
  {
    var init := opts[..|opts| - 1];
    SomesFull(opts);
    SomesSnoc(opts);
    if k < |init| {
      assert forall j :: 0 <= j < |init| ==> init[j] == opts[j];
      SomesAt(init, k);
      assert Somes(opts)[k] == Somes(init)[k];
    }
  }

  lemma SomesSnocNone<T>(opts: seq<Option<T>>)
    requires opts != [] && opts[|opts| - 1].None?
    ensures Somes(opts) == Somes(opts[..|opts| - 1])
  {
  }

  lemma SomesSnoc<T>(opts: seq<Option<T>>)
    requires opts != [] && opts[|opts| - 1].Some?
    ensures Somes(opts) == Somes(opts[..|opts| - 1]) + [opts[|opts| - 1].value]
  {
  }
}

=== FILE: factory.dfy ===
/** `SportApiFactory` of `services/api_sports_io.py`: a sport name is
    parsed into the `Sports` enumeration, the sport's block is looked up in
    the configuration, and the adapter class registered for the sport in
    `_MAP` is built from that block. */
module Factory {
  import opened Common

  /** The members of `core.Sports` the factory knows. */
  datatype Sport = Football | Mma | Nba

  /** `Sports.<member>.value`: the name a sport goes by in the
      configuration and in `AllSportsService.active`. */
  function SportValue(s: Sport): string
  {
    match s
    case Football => "football"
    case Mma => "mma"
    case Nba => "nba"
  }

  /** `Sports(sport_name)`: the member whose value is the name, or a
      ValueError for any other name. */
  function ParseSport(name: string): (r: Result<Sport>)
    ensures r.Ok? ==> SportValue(r.value) == name
    ensures r.Err? <==> forall s: Sport :: SportValue(s) != name
    ensures r.Err? ==> r.error == UnknownSport(name)
  {
    if name == "football" then Ok(Football)
    else if name == "mma" then Ok(Mma)
    else if name == "nba" then Ok(Nba)
    else Err(UnknownSport(name))
  }

  /** Parsing a member's value gives the member back, so no two members
      share a value. */
  lemma ParseSportValue(s: Sport)
    ensures ParseSport(SportValue(s)) == Ok(s)
  {
  }

  /** The adapter classes `_MAP` refers to. */
  datatype Adapter = RapidApiFootball | SportsIoMma | SportsIoNba

  /** `SportApiFactory._MAP`. */
  function AdapterFor(s: Sport): (a: Adapter)
    ensures SportOf(a) == s
  {
    match s
    case Nba => SportsIoNba
    case Mma => SportsIoMma
    case Football => RapidApiFootball
  }

  /** The sport each adapter class serves. */
  function SportOf(a: Adapter): Sport
  {
    match a
    case RapidApiFootball => Football
    case SportsIoMma => Mma
    case SportsIoNba => Nba
  }

  /** `_MAP` pairs the sports and the adapter classes one to one: every
      class is registered for exactly one sport. */
  lemma MapIsOneToOne(a: Adapter, s: Sport)
    ensures AdapterFor(s) == a <==> SportOf(a) == s
  {
  }

  /** The block `config.data["sport"][<name>]` an adapter is built from. The
      request details it holds stay with the adapter; the teams are the
      ones whose responses the adapter receives. */
  datatype SportData = SportData(url: string, teams: seq<string>, apiKeyName: string)

  /** An adapter instance: its class and the block it was built from. */
  datatype Service = Service(adapter: Adapter, data: SportData)

  /** `SportApiFactory()(config, sport_name)`, given the `sport` section of
      the configuration. The name is parsed first, then the block is looked
      up under the member's value. */
  function SelectService(sportSection: map<string, SportData>, name: string): (r: Result<Service>)
    ensures ParseSport(name).Err? ==> r == Err(UnknownSport(name))
    ensures ParseSport(name).Ok? && name !in sportSection ==> r == Err(MissingSportConfig(name))
    ensures r.Ok? <==> ParseSport(name).Ok? && name in sportSection
    ensures r.Ok? ==> && r.value.adapter == AdapterFor(ParseSport(name).value)
                      && r.value.data == sportSection[name]
  {
    match ParseSport(name)
    case Err(e) => Err(e)
    case Ok(sport) =>
      var key := SportValue(sport);
      if key !in sportSection then Err(MissingSportConfig(name))
      else Ok(Service(AdapterFor(sport), sportSection[key]))
  }

  /** `AllSportsService.active`: the sports fetched, in order. */
  const Active: seq<string> := ["football", "mma", "nba"]

  /** Every active name is a sport, and each is served by its own adapter:
      football by `RapidApiFootball`, mma by `SportsIoMMA`, nba by
      `SportsIoNBA`. */
  lemma ActiveSportsAdapters()
    ensures ParseSport(Active[0]) == Ok(Football) && AdapterFor(Football) == RapidApiFootball
    ensures ParseSport(Active[1]) == Ok(Mma) && AdapterFor(Mma) == SportsIoMma
    ensures ParseSport(Active[2]) == Ok(Nba) && AdapterFor(Nba) == SportsIoNba
  {
  }
}

=== FILE: lists.dfy ===
/** The list operations `AllSportsService.__call__` relies on: keeping the
    elements that pass a test, as its loop with `append` does, and
    Python's stable `list.sort(key=...)`, modelled by an insertion sort. */
module Lists {

  /** The elements of `xs` that pass `keep`, in order. */
  function Filter<T>(xs: seq<T>, keep: T -> bool): (r: seq<T>)
    ensures |r| <= |xs|
  {
    if xs == [] then []
    else
      var last := xs[|xs| - 1];
      Filter(xs[..|xs| - 1], keep) + (if keep(last) then [last] else [])
  }

  /** Every element that passes is kept as often as it occurs, and no other
      element is. */
  lemma {:induction false} FilterCounts<T>(xs: seq<T>, keep: T -> bool, x: T)
    ensures multiset(Filter(xs, keep))[x] == if keep(x) then multiset(xs)[x] else 0
  {
    if xs != [] {
      var init, last := xs[..|xs| - 1], xs[|xs| - 1];
      FilterCounts(init, keep, x);
      assert xs == init + [last];
    }
  }

  /** The kept elements keep their order: they are `xs` at increasing
      positions. */
  lemma {:induction false} FilterIsSubsequence<T>(xs: seq<T>, keep: T -> bool) returns (idx: seq<nat>)
    ensures |idx| == |Filter(xs, keep)|
    ensures forall j :: 0 <= j < |idx| ==> idx[j] < |xs| && Filter(xs, keep)[j] == xs[idx[j]]
    ensures forall j, l :: 0 <= j < l < |idx| ==> idx[j] < idx[l]
  {
    if xs == [] {
      idx := [];
    } else {
      var n := |xs| - 1;
      var prev := FilterIsSubsequence(xs[..n], keep);
      idx := prev + (if keep(xs[n]) then [n] else []);
      assert forall j :: 0 <= j < |prev| ==> xs[..n][prev[j]] == xs[prev[j]];
    }
  }

  predicate SortedBy<T>(xs: seq<T>, key: T -> int)
  {
    forall j, l :: 0 <= j < l < |xs| ==> key(xs[j]) <= key(xs[l])
  }

  /** The elements of `xs` whose key is `k`, in order. */
  function WithKey<T>(xs: seq<T>, key: T -> int, k: int): seq<T>
  {
    if xs == [] then []
    else
      var last := xs[|xs| - 1];
      WithKey(xs[..|xs| - 1], key, k) + (if key(last) == k then [last] else [])
  }

  /** Inserts `x` after every element whose key is not greater. */
  function Insert<T>(sorted: seq<T>, x: T, key: T -> int): (r: seq<T>)
    ensures |r| == |sorted| + 1
  {
    if sorted == [] || key(sorted[|sorted| - 1]) <= key(x) then sorted + [x]
    else Insert(sorted[..|sorted| - 1], x, key) + [sorted[|sorted| - 1]]
  }

  /** `list.sort(key=key)`: insertion of each element in turn. */
  function SortBy<T>(xs: seq<T>, key: T -> int): (r: seq<T>)
    ensures |r| == |xs|
  {
    if xs == [] then [] else Insert(SortBy(xs[..|xs| - 1], key), xs[|xs| - 1], key)
  }

  lemma {:induction false} InsertCounts<T>(sorted: seq<T>, x: T, key: T -> int)
    ensures multiset(Insert(sorted, x, key)) == multiset(sorted) + multiset{x}
  {
    if sorted != [] && key(sorted[|sorted| - 1]) > key(x) {
      var init, last := sorted[..|sorted| - 1], sorted[|sorted| - 1];
      InsertCounts(init, x, key);
      assert sorted == init + [last];
    }
  }

  lemma {:induction false} InsertSorted<T>(sorted: seq<T>, x: T, key: T -> int)
    requires SortedBy(sorted, key)
    ensures SortedBy(Insert(sorted, x, key), key)
  {
    if sorted != [] && key(sorted[|sorted| - 1]) > key(x) {
      var init, last := sorted[..|sorted| - 1], sorted[|sorted| - 1];
      InsertSorted(init, x, key);
      InsertBelow(init, x, key, key(last));
      SortedAppend(Insert(init, x, key), last, key);
    }
  }

  /** Inserting into elements whose keys are at most `k` an element whose
      key is below `k` keeps every key at most `k`. */
  lemma {:induction false} InsertBelow<T>(sorted: seq<T>, x: T, key: T -> int, k: int)
    requires forall j :: 0 <= j < |sorted| ==> key(sorted[j]) <= k
    requires key(x) <= k
    ensures forall j :: 0 <= j < |sorted| + 1 ==> key(Insert(sorted, x, key)[j]) <= k
  {
    if sorted != [] && key(sorted[|sorted| - 1]) > key(x) {
      var init := sorted[..|sorted| - 1];
      InsertBelow(init, x, key, k);
    }
  }

  lemma SortedAppend<T>(xs: seq<T>, x: T, key: T -> int)
    requires SortedBy(xs, key)
    requires forall j :: 0 <= j < |xs| ==> key(xs[j]) <= key(x)
    ensures SortedBy(xs + [x], key)
  {
  }

  /** The result is sorted and holds the same elements. */
  lemma {:induction false} SortBySorted<T>(xs: seq<T>, key: T -> int)
    ensures SortedBy(SortBy(xs, key), key)
    ensures multiset(SortBy(xs, key)) == multiset(xs)
  {
    if xs != [] {
      var init := xs[..|xs| - 1];
      SortBySorted(init, key);
      InsertSorted(SortBy(init, key), xs[|xs| - 1], key);
      InsertCounts(SortBy(init, key), xs[|xs| - 1], key);
      assert xs == init + [xs[|xs| - 1]];
    }
  }

  /** Inserting `x` puts it after every element with the same key. */
  lemma {:induction false} WithKeyInsert<T>(sorted: seq<T>, x: T, key: T -> int, k: int)
    ensures WithKey(Insert(sorted, x, key), key, k)
         == WithKey(sorted, key, k) + (if key(x) == k then [x] else [])
  {
    if sorted == [] || key(sorted[|sorted| - 1]) <= key(x) {
      assert (sorted + [x])[..|sorted|] == sorted;
    } else {
      var init, last := sorted[..|sorted| - 1], sorted[|sorted| - 1];
      WithKeyInsert(init, x, key, k);
      WithKeySnoc(Insert(init, x, key), last, key, k);
    }
  }

  lemma WithKeySnoc<T>(xs: seq<T>, x: T, key: T -> int, k: int)
    ensures WithKey(xs + [x], key, k) == WithKey(xs, key, k) + (if key(x) == k then [x] else [])
  {
    assert (xs + [x])[..|xs|] == xs;
  }

  /** The sort is stable: the elements with any one key keep their
      relative order. */
  lemma {:induction false} SortByStable<T>(xs: seq<T>, key: T -> int, k: int)
    ensures WithKey(SortBy(xs, key), key, k) == WithKey(xs, key, k)
  {
    if xs != [] {
      var init := xs[..|xs| - 1];
      SortByStable(init, key, k);
      WithKeyInsert(SortBy(init, key), xs[|xs| - 1], key, k);
    }
  }

  /** `WithKey` keeps exactly the elements with the key. */
  lemma {:induction false} WithKeyMembers<T>(xs: seq<T>, key: T -> int, k: int, x: T)
    ensures x in WithKey(xs, key, k) <==> x in xs && key(x) == k
  {
    if xs != [] {
      var init, last := xs[..|xs| - 1], xs[|xs| - 1];
      WithKeyMembers(init, key, k, x);
      assert xs == init + [last];
    }
  }

  /** A sequence sorted by a key is determined by the order of the elements
      of each key: any two stable sorts of the same input agree, so the
      insertion sort gives what Python's sort gives. */
  lemma {:induction false} SortedUnique<T>(a: seq<T>, b: seq<T>, key: T -> int)
    requires SortedBy(a, key) && SortedBy(b, key)
    requires forall k :: WithKey(a, key, k) == WithKey(b, key, k)
    ensures a == b
    decreases |a| + |b|
  {
    if a == [] || b == [] {
      if a != [] {
        WithKeyMembers(a, key, key(a[|a| - 1]), a[|a| - 1]);
      } else if b != [] {
        WithKeyMembers(b, key, key(b[|b| - 1]), b[|b| - 1]);
      }
    } else {
      var ia, ib := LastsAgree(a, b, key);
      SortedUnique(ia, ib, key);
      assert a == ia + [a[|a| - 1]] && b == ib + [b[|b| - 1]];
    }
  }

  /** Two non-empty sequences as in `SortedUnique` end in the same element,
      and what precedes it satisfies the same hypotheses. */
  lemma LastsAgree<T>(a: seq<T>, b: seq<T>, key: T -> int) returns (ia: seq<T>, ib: seq<T>)
    requires a != [] && b != [] && SortedBy(a, key) && SortedBy(b, key)
    requires forall k :: WithKey(a, key, k) == WithKey(b, key, k)
    ensures ia == a[..|a| - 1] && ib == b[..|b| - 1]
    ensures a[|a| - 1] == b[|b| - 1]
    ensures SortedBy(ia, key) && SortedBy(ib, key)
    ensures forall k :: WithKey(ia, key, k) == WithKey(ib, key, k)
  {
    ia, ib := a[..|a| - 1], b[..|b| - 1];
    LastKeyBelow(a, b, key);
    LastKeyBelow(b, a, key);
    LastOfKey(a, b, key);
    SortedPrefix(a, key);
    SortedPrefix(b, key);
    forall k ensures WithKey(ia, key, k) == WithKey(ib, key, k) {
      InitsOfKey(a, b, key, k);
    }
  }

  /** Sequences with equal last keys and the same elements of that key end
      in the same element. */
  lemma LastOfKey<T>(a: seq<T>, b: seq<T>, key: T -> int)
    requires a != [] && b != [] && key(a[|a| - 1]) == key(b[|b| - 1])
    requires WithKey(a, key, key(a[|a| - 1])) == WithKey(b, key, key(a[|a| - 1]))
    ensures a[|a| - 1] == b[|b| - 1]
  {
    WithKeyInit(a, key, key(a[|a| - 1]));
    WithKeyInit(b, key, key(a[|a| - 1]));
  }

  lemma SortedPrefix<T>(a: seq<T>, key: T -> int)
    requires a != [] && SortedBy(a, key)
    ensures SortedBy(a[..|a| - 1], key)
  {
  }

  /** Dropping equal last elements keeps the elements of every key equal. */
  lemma InitsOfKey<T>(a: seq<T>, b: seq<T>, key: T -> int, k: int)
    requires a != [] && b != [] && a[|a| - 1] == b[|b| - 1]
    requires WithKey(a, key, k) == WithKey(b, key, k)
    ensures WithKey(a[..|a| - 1], key, k) == WithKey(b[..|b| - 1], key, k)
  {
    WithKeyInit(a, key, k);
    WithKeyInit(b, key, k);
  }

  /** Dropping the last element drops it from the elements of its key. */
  lemma WithKeyInit<T>(xs: seq<T>, key: T -> int, k: int)
    requires xs != []
    ensures var w, last := WithKey(xs, key, k), xs[|xs| - 1];
      && (key(last) == k ==>
            w != [] && w[|w| - 1] == last && WithKey(xs[..|xs| - 1], key, k) == w[..|w| - 1])
      && (key(last) != k ==> WithKey(xs[..|xs| - 1], key, k) == w)
  {
    var init := WithKey(xs[..|xs| - 1], key, k);
    assert (init + [xs[|xs| - 1]])[..|init|] == init;
  }

  /** The last element of `a` occurs in `b` when the two have the same
      elements of its key, so it is at most the last key of a sorted `b`. */
  lemma LastKeyBelow<T>(a: seq<T>, b: seq<T>, key: T -> int)
    requires a != [] && b != [] && SortedBy(b, key)
    requires WithKey(a, key, key(a[|a| - 1])) == WithKey(b, key, key(a[|a| - 1]))
    ensures key(a[|a| - 1]) <= key(b[|b| - 1])
  {
    var la := a[|a| - 1];
    WithKeyMembers(a, key, key(la), la);
    WithKeyMembers(b, key, key(la), la);
    var i :| 0 <= i < |b| && b[i] == la;
    if i < |b| - 1 {
      assert key(b[i]) <= key(b[|b| - 1]);
    }
  }

  /** The element `xs[i]` is compared with: the one before it, or `start`
      for the first. */
  function PreviousOf<T>(xs: seq<T>, start: T, i: nat): T
    requires i <= |xs|
  {
    if i == 0 then start else xs[i - 1]
  }

  /** `xs[i]` starts a run: it differs from the element before it (from
      `start` for the first element). */
  predicate StartsRun<T(==)>(xs: seq<T>, start: T, i: nat)
    requires i < |xs|
  {
    xs[i] != PreviousOf(xs, start, i)
  }

  /** One element per run of equal neighbours, in order. */
  function Collapse<T(==)>(xs: seq<T>, start: T): (out: seq<T>)
    ensures |out| <= |xs|
  {
    if xs == [] then []
    else
      var n := |xs| - 1;
      Collapse(xs[..n], start) + (if StartsRun(xs, start, n) then [xs[n]] else [])
  }

  /** One more element extends the collapse of the prefix. */
  lemma CollapseStep<T>(xs: seq<T>, start: T, i: nat)
    requires i < |xs|
    ensures Collapse(xs[..i + 1], start)
         == Collapse(xs[..i], start) + (if xs[i] != PreviousOf(xs, start, i) then [xs[i]] else [])
  {
    assert xs[..i + 1][..i] == xs[..i];
  }

  predicate NoAdjacentDuplicates<T(==)>(xs: seq<T>)
  {
    forall j :: 0 < j < |xs| ==> xs[j] != xs[j - 1]
  }

  lemma StartsRunOfPrefix<T>(xs: seq<T>, start: T, n: nat)
    requires n <= |xs|
    ensures forall i :: 0 <= i < n ==> (StartsRun(xs[..n], start, i) <==> StartsRun(xs, start, i))
  {
  }

  /** The positions of the elements that start a run. */
  function RunStarts<T(==)>(xs: seq<T>, start: T): seq<nat>
  {
    if xs == [] then []
    else
      var n := |xs| - 1;
      RunStarts(xs[..n], start) + (if StartsRun(xs, start, n) then [n] else [])
  }

  /** The collapse is `xs` at increasing positions. */
  lemma {:induction false} CollapseIsSubsequence<T>(xs: seq<T>, start: T)
    ensures var idx := RunStarts(xs, start);
      && |idx| == |Collapse(xs, start)|
      && (forall j :: 0 <= j < |idx| ==> idx[j] < |xs| && Collapse(xs, start)[j] == xs[idx[j]])
      && (forall j, l :: 0 <= j < l < |idx| ==> idx[j] < idx[l])
  {
    if xs != [] {
      var n := |xs| - 1;
      CollapseIsSubsequence(xs[..n], start);
      var prev := RunStarts(xs[..n], start);
      assert forall j :: 0 <= j < |prev| ==> xs[..n][prev[j]] == xs[prev[j]];
    }
  }

  /** The positions kept are exactly those of the elements that differ from
      their predecessor: a run of equal elements is kept once, and equal
      elements that are not neighbours are all kept. */
  lemma {:induction false} RunStartsExact<T>(xs: seq<T>, start: T, i: nat)
    requires i < |xs|
    ensures i in RunStarts(xs, start) <==> StartsRun(xs, start, i)
  {
    var n := |xs| - 1;
    if i < n {
      RunStartsExact(xs[..n], start, i);
      StartsRunOfPrefix(xs, start, n);
    } else {
      RunStartsBelow(xs[..n], start);
    }
  }

  lemma {:induction false} RunStartsBelow<T>(xs: seq<T>, start: T)
    ensures forall j :: 0 <= j < |RunStarts(xs, start)| ==> RunStarts(xs, start)[j] < |xs|
  {
    if xs != [] {
      RunStartsBelow(xs[..|xs| - 1], start);
    }
  }

  /** Nothing is kept exactly when every element equals `start`; otherwise
      the last element kept is the last element. */
  lemma {:induction false} CollapseLast<T>(xs: seq<T>, start: T)
    ensures Collapse(xs, start) == [] <==> forall i :: 0 <= i < |xs| ==> xs[i] == start
    ensures Collapse(xs, start) != [] ==> Collapse(xs, start)[|Collapse(xs, start)| - 1] == xs[|xs| - 1]
  {
    if xs != [] {
      var n := |xs| - 1;
      CollapseLast(xs[..n], start);
      assert forall i :: 0 <= i < n ==> xs[..n][i] == xs[i];
    }
  }

  /** No two kept elements in a row are equal. */
  lemma {:induction false} CollapseNoAdjacent<T>(xs: seq<T>, start: T)
    ensures NoAdjacentDuplicates(Collapse(xs, start))
  {
    if xs != [] {
      var n := |xs| - 1;
      var prev := Collapse(xs[..n], start);
      CollapseNoAdjacent(xs[..n], start);
      CollapseLast(xs[..n], start);
      if StartsRun(xs, start, n) && prev != [] {
        assert prev[|prev| - 1] == xs[n - 1];
      }
    }
  }

  /** Elements without equal neighbours, the first differing from `start`,
      are all kept. */
  lemma {:induction false} CollapseUnchanged<T>(xs: seq<T>, start: T)
    requires NoAdjacentDuplicates(xs)
    requires xs != [] ==> xs[0] != start
    ensures Collapse(xs, start) == xs
  {
    if xs != [] {
      var n := |xs| - 1;
      assert NoAdjacentDuplicates(xs[..n]);
      CollapseUnchanged(xs[..n], start);
      assert xs == xs[..n] + [xs[n]];
    }
  }
}

=== FILE: match.dfy ===
/** The match entity of `domain/match.py`: the calendar buckets a match
    falls in relative to the day it was built, the time-frame filter and
    the one-line display card.

    Dates are day ordinals numbered as Python's `date.toordinal()` does.
    The instant a match starts at is taken as already converted to the
    New York time zone: its ordering key, its calendar day there and its
    printed form are given, not computed. */
module Domain {

  /** Python's `date.weekday()` on a day ordinal: 0 is Monday and 6 is
      Sunday; ordinal 1 (1 January of year 1) is a Monday. */
  function Weekday(day: int): (w: int)
    ensures 0 <= w < 7
  {
    (day + 6) % 7
  }

  /** `strftime("%a").upper()` in the C locale. */
  function DayLabel(day: int): (tag: string)
    ensures |tag| == 3
    ensures forall i :: 0 <= i < 3 ==> 'A' <= tag[i] <= 'Z'
  {
    ["MON", "TUE", "WED", "THU", "FRI", "SAT", "SUN"][Weekday(day)]
  }

  /** The weekday a label names: the inverse of `DayLabel`. A string that
      is no label reads as 6. */
  function WeekdayOfLabel(tag: string): int
  {
    if tag == "MON" then 0 else if tag == "TUE" then 1 else if tag == "WED" then 2
    else if tag == "THU" then 3 else if tag == "FRI" then 4 else if tag == "SAT" then 5
    else 6
  }

  /** Reading the label back gives the weekday, so two days get the same
      label exactly when they fall on the same weekday, and "MON" labels
      exactly the Mondays. */
  lemma DayLabelNamesWeekday(a: int, b: int)
    ensures WeekdayOfLabel(DayLabel(a)) == Weekday(a)
    ensures DayLabel(a) == DayLabel(b) <==> Weekday(a) == Weekday(b)
    ensures DayLabel(a) == "MON" <==> Weekday(a) == 0
  {
    LabelRoundTrip(a);
    LabelRoundTrip(b);
  }

  lemma LabelRoundTrip(day: int)
    ensures WeekdayOfLabel(DayLabel(day)) == Weekday(day)
  {
    var w := Weekday(day);
    var names := ["MON", "TUE", "WED", "THU", "FRI", "SAT", "SUN"];
    assert DayLabel(day) == names[w];
    if w == 0 { assert names[0] == "MON"; }
    else if w == 1 { assert names[1] == "TUE"; }
    else if w == 2 { assert names[2] == "WED"; }
    else if w == 3 { assert names[3] == "THU"; }
    else if w == 4 { assert names[4] == "FRI"; }
    else if w == 5 { assert names[5] == "SAT"; }
    else { assert names[6] == "SUN"; }
  }

  /** The Monday on or before `day`: `day - timedelta(days=day.weekday())`. */
  function WeekStart(day: int): (monday: int)
    ensures Weekday(monday) == 0
    ensures monday <= day <= monday + 6
  {
    day - Weekday(day)
  }

  /** A Monday is the week start of itself and of the six days after it. */
  lemma WeekStartOfWeekDay(monday: int, day: int)
    requires Weekday(monday) == 0
    requires monday <= day <= monday + 6
    ensures WeekStart(day) == monday
    ensures Weekday(day) == day - monday
  {
    var k := day - monday;
    assert (monday + 6) % 7 == 0;
    assert day + 6 == (monday + 6) + k;
    assert (day + 6) % 7 == k;
  }

  /** A start instant, already in the New York time zone. */
  datatype Instant = Instant(
    /** The New York wall-clock time as one number: what
        `sort(key=lambda x: x.start)` compares, since aware datetimes
        sharing one time zone object compare by wall clock. */
    wallClock: int,
    /** `start.date()` as a day ordinal. */
    day: int,
    /** `str(start)`. */
    text: string)

  /** The flags `Match.__init__` derives from the start day and today. */
  datatype Buckets = Buckets(
    inCurrentWeek: bool,
    inNextWeek: bool,
    inNext7Days: bool,
    inNext15Days: bool,
    isOld: bool,
    isRecent: bool,
    isLater: bool)

  /** The bucket flags of a match starting on day `start`, computed on day
      `now`. The source's next week ends six days after the current week's
      Sunday, so it spans Monday to Saturday. */
  function Classify(now: int, start: int): (b: Buckets)
    ensures b.isOld <==> start < now
    ensures !(b.inCurrentWeek && b.inNextWeek)
    ensures b.inNextWeek ==> !b.isOld
    ensures b.isLater ==> !b.inCurrentWeek && !b.inNextWeek && !b.isOld
    ensures b.isOld || b.inCurrentWeek || b.inNextWeek || b.isLater
    ensures b.isRecent <==> b.inCurrentWeek || b.inNextWeek
    ensures b.inNext7Days ==> b.inNext15Days
    ensures b.inNext15Days ==> !b.isOld
    ensures start == now ==> b.inCurrentWeek && b.inNext7Days
  {
    var currentWeekStart := WeekStart(now);
    var currentWeekEnd := currentWeekStart + 6;
    var nextWeekStart := currentWeekEnd + 1;
    var nextWeekEnd := currentWeekEnd + 6;
    var inCurrentWeek := currentWeekStart <= start <= currentWeekEnd;
    var inNextWeek := nextWeekStart <= start <= nextWeekEnd;
    Buckets(
      inCurrentWeek,
      inNextWeek,
      now <= start <= now + 7,
      now <= start <= now + 15,
      now > start,
      inCurrentWeek || inNextWeek,
      start > nextWeekEnd)
  }

  /** The current week is the Monday-to-Sunday calendar week of today. */
  lemma CurrentWeekIsCalendarWeek(now: int, start: int)
    ensures Classify(now, start).inCurrentWeek <==> WeekStart(start) == WeekStart(now)
  {
    var m := WeekStart(now);
    if m <= start <= m + 6 {
      WeekStartOfWeekDay(m, start);
    }
  }

  /** The next-week bucket is the following calendar week minus its Sunday:
      six days, Monday through Saturday. */
  lemma NextWeekIsMondayToSaturday(now: int, start: int)
    ensures Classify(now, start).inNextWeek
        <==> WeekStart(start) == WeekStart(now) + 7 && Weekday(start) != 6
  {
    var m := WeekStart(now) + 7;
    assert Weekday(m) == 0 by {
      assert (m + 6) % 7 == (WeekStart(now) + 6) % 7;
    }
    if m <= start <= m + 6 {
      WeekStartOfWeekDay(m, start);
    } else if WeekStart(start) == m {
      assert false;
    }
  }

  /** The Sunday that closes next calendar week is already "later". */
  lemma NextSundayIsLater(now: int)
    ensures Weekday(WeekStart(now) + 13) == 6
    ensures !Classify(now, WeekStart(now) + 13).inNextWeek
    ensures Classify(now, WeekStart(now) + 13).isLater
  {
    var m := WeekStart(now) + 7;
    assert Weekday(m) == 0 by {
      assert (m + 6) % 7 == (WeekStart(now) + 6) % 7;
    }
    WeekStartOfWeekDay(m, m + 6);
  }

  /** The time-frame names `meets_time_frame` recognises besides "all". */
  const NamedFrames: set<string> := {"old", "this_week", "next_week", "recent", "later"}

  /** The four frames that split every match between them. */
  const PartitionFrames: set<string> := {"old", "this_week", "next_week", "later"}

  /** A match as `Match.__init__` leaves it. The flags are a function of the
      start day and of `createdOn`, the day the clock was read. */
  datatype Match = Match(
    sport: string,
    league: string,
    home: string,
    away: string,
    start: Instant,
    details: string,
    createdOn: int)

  function Flags(m: Match): Buckets
  {
    Classify(m.createdOn, m.start.day)
  }

  /** `Match(sport, home, away, start, league, details)` built on day `now`. */
  function NewMatch(sport: string, home: string, away: string, start: Instant,
                    league: string, details: string, now: int): (m: Match)
    ensures m.sport == sport && m.league == league && m.home == home && m.away == away
    ensures m.start == start && m.details == details
    ensures MeetsTimeFrame(m, "old") <==> start.day < now
    ensures MeetsTimeFrame(m, "this_week")
        <==> now <= start.day && WeekStart(start.day) == WeekStart(now)
    ensures MeetsTimeFrame(m, "next_week")
        <==> WeekStart(start.day) == WeekStart(now) + 7 && Weekday(start.day) != 6
  {
    CurrentWeekIsCalendarWeek(now, start.day);
    NextWeekIsMondayToSaturday(now, start.day);
    Match(sport, league, home, away, start, details, now)
  }

  /** `meets_time_frame`: whether the match belongs to the named frame;
      "all" and every name it does not know accept every match. */
  function MeetsTimeFrame(m: Match, timeFrame: string): (r: bool)
    ensures timeFrame !in NamedFrames ==> r
    ensures timeFrame == "recent" ==> (r <==> Flags(m).isRecent && !Flags(m).isOld)
  {
    var b := Flags(m);
    if timeFrame == "all" then true
    else if timeFrame == "old" then b.isOld
    else if timeFrame == "this_week" then b.inCurrentWeek && !b.isOld
    else if timeFrame == "next_week" then b.inNextWeek
    else if timeFrame == "recent" then (b.inNextWeek || b.inCurrentWeek) && !b.isOld
    else if timeFrame == "later" then b.isLater
    else true
  }

  /** "recent" is exactly "this_week" or "next_week". */
  lemma RecentIsThisOrNextWeek(m: Match)
    ensures MeetsTimeFrame(m, "recent")
        <==> MeetsTimeFrame(m, "this_week") || MeetsTimeFrame(m, "next_week")
  {
  }

  /** The frame among old, this_week, next_week and later that the match
      belongs to; it belongs to no other of the four. */
  function TimeBucket(m: Match): (frame: string)
    ensures frame in PartitionFrames
    ensures forall g :: g in PartitionFrames ==> (MeetsTimeFrame(m, g) <==> g == frame)
  {
    var b := Flags(m);
    if b.isOld then "old"
    else if b.inCurrentWeek then "this_week"
    else if b.inNextWeek then "next_week"
    else "later"
  }

  /** `sport_abr`: "FOT" for football, the league otherwise. */
  function SportAbr(m: Match): (abr: string)
    ensures m.sport == "football" ==> abr == "FOT"
    ensures m.sport != "football" ==> abr == m.league
  {
    if m.sport == "football" then "FOT" else m.league
  }

  /** `day_of_week`. */
  function DayOfWeek(m: Match): string
  {
    DayLabel(m.start.day)
  }

  /** `str(match)`: the home name, " vs ", the away name, " at " and the
      printed start. */
  function MatchText(m: Match): (t: string)
    ensures |t| == |m.home| + |m.away| + |m.start.text| + 8
    ensures t[..|m.home|] == m.home && t[|m.home|..|m.home| + 4] == " vs "
    ensures t[|m.home| + 4..|m.home| + 4 + |m.away|] == m.away
    ensures t[|t| - |m.start.text| - 4..] == " at " + m.start.text
  {
    m.home + " vs " + m.away + " at " + m.start.text
  }

  /** The label `get_match_card(show_time_label=True)` puts first, chosen
      in the order current week, next week, old, later. */
  function TimeLabel(m: Match): (tag: string)
    ensures tag == "--next" <==> Flags(m).inCurrentWeek
    ensures tag == "--next_week" <==> MeetsTimeFrame(m, "next_week")
    ensures tag == "--is_old" <==> MeetsTimeFrame(m, "old") && !Flags(m).inCurrentWeek
    ensures tag == "--later ->" <==> MeetsTimeFrame(m, "later")
  {
    var b := Flags(m);
    if b.inCurrentWeek then "--next"
    else if b.inNextWeek then "--next_week"
    else if b.isOld then "--is_old"
    else "--later ->"
  }

  /** `get_match_card`. */
  function MatchCard(m: Match, showTimeLabel: bool): (card: string)
    ensures |card| > 0
  {
    (if showTimeLabel then TimeLabel(m) else "") + CardBody(m)
  }

  /** What follows the time label on a card. */
  function CardBody(m: Match): string
  {
    " " + DayOfWeek(m) + " -> " + MatchText(m) + ", (" + SportAbr(m) + ")"
  }

  /** A labelled card is the unlabelled card behind the time label. The
      unlabelled card is a space, the weekday and an arrow, then a space and
      `str(match)`, then the abbreviation in parentheses; a football card
      therefore ends in ", (FOT)". */
  lemma CardLayout(m: Match)
    ensures MatchCard(m, true) == TimeLabel(m) + MatchCard(m, false)
    ensures var card, n := MatchCard(m, false), |MatchText(m)|;
      && |card| == 12 + n + |SportAbr(m)|
      && card[..7] == " " + DayOfWeek(m) + " ->"
      && card[7..8 + n] == " " + MatchText(m)
      && card[8 + n..] == ", (" + SportAbr(m) + ")"
    ensures m.sport == "football" ==> MatchCard(m, false)[|MatchCard(m, false)| - 7..] == ", (FOT)"
  {
    assert MatchCard(m, false) == CardBody(m);
    CardBodyParts(m);
    if m.sport == "football" {
      FootballCardEnd(m);
    }
  }

  lemma FootballCardEnd(m: Match)
    requires m.sport == "football"
    ensures CardBody(m)[|CardBody(m)| - 7..] == ", (FOT)"
  {
    CardBodyParts(m);
    var n := |MatchText(m)|;
    assert CardBody(m)[|CardBody(m)| - 7..] == CardBody(m)[8 + n..];
  }

  lemma CardBodyParts(m: Match)
    ensures var card, n := CardBody(m), |MatchText(m)|;
      && |card| == 12 + n + |SportAbr(m)|
      && card[..7] == " " + DayOfWeek(m) + " ->"
      && card[7..8 + n] == " " + MatchText(m)
      && card[8 + n..] == ", (" + SportAbr(m) + ")"
  {
    var head := " " + DayOfWeek(m) + " ->";
    var mid := " " + MatchText(m);
    var tail := ", (" + SportAbr(m) + ")";
    assert CardBody(m) == head + mid + tail;
    assert (head + mid + tail)[..7] == head;
    assert (head + mid + tail)[7..8 + |MatchText(m)|] == mid;
    assert (head + mid + tail)[8 + |MatchText(m)|..] == tail;
  }
}

=== FILE: text.dfy ===
/** The handful of Python `str` operations the slug heuristics rely on:
    `split()` and `strip()` with no argument, `find`, slicing, `lower()`
    and `isdigit()`. */
module Text {

  /** Whether `c` lies in one of the inclusive ranges. */
  predicate InRanges(c: char, ranges: seq<(char, char)>)
  {
    ranges != [] && ((ranges[0].0 <= c <= ranges[0].1) || InRanges(c, ranges[1..]))
  }

  /** The code point ranges for which Python's `str.isspace()` holds. */
  const SpaceRanges: seq<(char, char)> :=
    [(' ', ' '), ('\U{9}', '\U{D}'), ('\U{1C}', '\U{1F}'), ('\U{85}', '\U{85}'),
     ('\U{A0}', '\U{A0}'), ('\U{1680}', '\U{1680}'), ('\U{2000}', '\U{200A}'),
     ('\U{2028}', '\U{2029}'), ('\U{202F}', '\U{202F}'), ('\U{205F}', '\U{205F}'),
     ('\U{3000}', '\U{3000}')]

  /** Python's `str.isspace()` for one character: the separators that
      `split()` and `strip()` use when called without an argument. */
  predicate IsSpace(c: char)
  {
    InRanges(c, SpaceRanges)
  }

  lemma {:induction false} InRangesMeaning(c: char, ranges: seq<(char, char)>)
    ensures InRanges(c, ranges) <==> exists k :: 0 <= k < |ranges| && ranges[k].0 <= c <= ranges[k].1
  {
    if ranges != [] {
      InRangesMeaning(c, ranges[1..]);
      if exists k :: 0 <= k < |ranges| && ranges[k].0 <= c <= ranges[k].1 {
        var k :| 0 <= k < |ranges| && ranges[k].0 <= c <= ranges[k].1;
        if k > 0 { assert ranges[1..][k - 1] == ranges[k]; }
      }
    }
  }

  /** Printable ASCII other than the space is not whitespace. */
  lemma PrintableNotSpace(c: char)
    requires '!' <= c <= '~'
    ensures !IsSpace(c)
  {
    InRangesMeaning(c, SpaceRanges);
  }

  /** A word of printable ASCII characters has no whitespace. */
  lemma PrintableWord(w: string)
    requires forall i :: 0 <= i < |w| ==> '!' <= w[i] <= '~'
    ensures NoSpace(w)
  {
    forall i | 0 <= i < |w|
      ensures !IsSpace(w[i])
    {
      PrintableNotSpace(w[i]);
    }
  }

  predicate AllSpace(s: string)
  {
    forall i :: 0 <= i < |s| ==> IsSpace(s[i])
  }

  predicate NoSpace(s: string)
  {
    forall i :: 0 <= i < |s| ==> !IsSpace(s[i])
  }

  /** A string that neither starts nor ends with whitespace. */
  predicate Trimmed(s: string)
  {
    s == [] || (!IsSpace(s[0]) && !IsSpace(s[|s| - 1]))
  }

  /** Length of the run of whitespace that starts `s`. */
  function LeadingSpace(s: string): (n: nat)
    ensures n <= |s|
    ensures AllSpace(s[..n])
    ensures n < |s| ==> !IsSpace(s[n])
  {
    if s == [] || !IsSpace(s[0]) then 0 else 1 + LeadingSpace(s[1..])
  }

  /** Length of the run of non-whitespace that starts `s`. */
  function LeadingWord(s: string): (n: nat)
    ensures n <= |s|
    ensures NoSpace(s[..n])
    ensures n < |s| ==> IsSpace(s[n])
  {
    if s == [] || IsSpace(s[0]) then 0 else 1 + LeadingWord(s[1..])
  }

  /** Python's `s.split()`: the maximal runs of non-whitespace, in order. */
  function Words(s: string): (ws: seq<string>)
    ensures ValidWords(ws)
    ensures AllSpace(s) <==> ws == []
    decreases |s|
  {
    var i := LeadingSpace(s);
    if i == |s| then
      assert s[..i] == s;
      []
    else
      assert !IsSpace(s[i]);
      var t := s[i..];
      var n := LeadingWord(t);
      [t[..n]] + Words(t[n..])
  }

  /** The words separated by single spaces (`" ".join(ws)`). */
  function JoinWords(ws: seq<string>): string
  {
    if ws == [] then []
    else if |ws| == 1 then ws[0]
    else ws[0] + " " + JoinWords(ws[1..])
  }

  predicate ValidWords(ws: seq<string>)
  {
    forall k :: 0 <= k < |ws| ==> ws[k] != [] && NoSpace(ws[k])
  }

  lemma {:induction false} LeadingSpaceOfPadded(a: string, rest: string)
    requires AllSpace(a)
    ensures LeadingSpace(a + rest) == |a| + LeadingSpace(rest)
    decreases |a|
  {
    if a != [] {
      assert (a + rest)[0] == a[0];
      assert (a + rest)[1..] == a[1..] + rest;
      LeadingSpaceOfPadded(a[1..], rest);
    } else {
      assert a + rest == rest;
    }
  }

  lemma {:induction false} LeadingWordOf(w: string, rest: string)
    requires NoSpace(w)
    requires rest == [] || IsSpace(rest[0])
    ensures LeadingWord(w + rest) == |w|
    decreases |w|
  {
    if w != [] {
      assert (w + rest)[0] == w[0];
      assert (w + rest)[1..] == w[1..] + rest;
      LeadingWordOf(w[1..], rest);
    }
  }

  /** Leading whitespace does not change the words. */
  lemma WordsSkipSpace(c: char, s: string)
    requires IsSpace(c)
    ensures Words([c] + s) == Words(s)
  {
    LeadingSpaceOfPadded([c], s);
    assert ([c] + s)[LeadingSpace([c] + s)..] == s[LeadingSpace(s)..];
  }

  /** A word followed by whitespace (or nothing) is split off first. */
  lemma WordsOfWordThen(w: string, rest: string)
    requires w != [] && NoSpace(w)
    requires rest == [] || IsSpace(rest[0])
    ensures Words(w + rest) == [w] + Words(rest)
  {
    var s := w + rest;
    assert s[0] == w[0];
    assert LeadingSpace(s) == 0;
    assert s[0..] == s;
    LeadingWordOf(w, rest);
    assert s[..|w|] == w;
    assert s[|w|..] == rest;
  }

  /** `split()` undoes `" ".join(...)` on words without whitespace. */
  lemma {:induction false} WordsOfJoin(ws: seq<string>)
    requires ValidWords(ws)
    ensures Words(JoinWords(ws)) == ws
    decreases |ws|
  {
    if ws == [] {
    } else if |ws| == 1 {
      WordsOfWordThen(ws[0], []);
      assert ws[0] + [] == ws[0];
    } else {
      WordsOfJoin(ws[1..]);
      WordsOfWordSpace(ws[0], JoinWords(ws[1..]));
      assert ws == [ws[0]] + ws[1..];
    }
  }

  /** A word, a space and more text split into the word and the words of
      the rest. */
  lemma WordsOfWordSpace(w: string, rest: string)
    requires w != [] && NoSpace(w)
    ensures Words(w + " " + rest) == [w] + Words(rest)
  {
    assert w + " " + rest == w + ([' '] + rest);
    WordsOfWordThen(w, [' '] + rest);
    WordsSkipSpace(' ', rest);
  }

  /** Two words joined by a space split back into the two words. */
  lemma WordsOfTwo(first: string, second: string)
    requires first != [] && NoSpace(first) && second != [] && NoSpace(second)
    ensures Words(first + " " + second) == [first, second]
  {
    WordsOfWordSpace(first, second);
    WordsOfWordThen(second, []);
    assert second + [] == second;
  }

  /** Python's `s.strip()`: `s` without its leading and trailing
      whitespace, removed one character at a time. */
  function Strip(s: string): (r: string)
    ensures Trimmed(r)
    ensures |r| <= |s|
    decreases |s|
  {
    if s != [] && IsSpace(s[0]) then Strip(s[1..])
    else if s != [] && IsSpace(s[|s| - 1]) then Strip(s[..|s| - 1])
    else s
  }

  /** `strip()` removes exactly the whitespace padding around a trimmed
      string. */
  lemma {:induction false} StripPadded(a: string, x: string, b: string)
    requires AllSpace(a) && AllSpace(b) && Trimmed(x)
    ensures Strip(a + x + b) == x
    decreases |a| + |b|
  {
    if a != [] {
      StripLeadingSpace(a, x, b);
      StripPadded(a[1..], x, b);
    } else if x == [] && b != [] {
      StripLeadingSpace(b, [], []);
      StripPadded([], [], b[1..]);
      assert b + [] + [] == a + x + b && b[1..] + [] + [] == [] + [] + b[1..];
    } else if b != [] {
      StripTrailingSpace(x, b);
      StripPadded([], x, b[..|b| - 1]);
    } else {
      StripTrimmed(x);
    }
  }

  /** A leading space is stripped first. */
  lemma StripLeadingSpace(a: string, x: string, b: string)
    requires a != [] && IsSpace(a[0])
    ensures Strip(a + x + b) == Strip(a[1..] + x + b)
  {
    var s := a + x + b;
    assert s[0] == a[0];
    assert s[1..] == a[1..] + x + b;
    StripFront(s);
  }

  /** Behind a string that does not start with a space, a trailing space
      is stripped first. */
  lemma StripTrailingSpace(x: string, b: string)
    requires b != [] && IsSpace(b[|b| - 1])
    requires x != [] && !IsSpace(x[0])
    ensures Strip([] + x + b) == Strip([] + x + b[..|b| - 1])
  {
    var s := [] + x + b;
    assert s[0] == x[0];
    assert s[|s| - 1] == b[|b| - 1];
    assert s[..|s| - 1] == [] + x + b[..|b| - 1];
    StripBack(s);
  }

  /** A string with no space at either end is its own stripped form. */
  lemma StripTrimmed(x: string)
    requires Trimmed(x)
    ensures Strip([] + x + []) == x
  {
    assert [] + x + [] == x;
    StripKeeps(x);
  }

  lemma StripKeeps(x: string)
    requires Trimmed(x)
    ensures Strip(x) == x
  {
  }

  lemma StripFront(s: string)
    requires s != [] && IsSpace(s[0])
    ensures Strip(s) == Strip(s[1..])
  {
  }

  lemma StripBack(s: string)
    requires s != [] && !IsSpace(s[0]) && IsSpace(s[|s| - 1])
    ensures Strip(s) == Strip(s[..|s| - 1])
  {
  }

  lemma AllSpaceAppend(a: string, b: string)
    requires AllSpace(a) && AllSpace(b)
    ensures AllSpace(a + b)
  {
    forall i | 0 <= i < |a + b|
      ensures IsSpace((a + b)[i])
    {
      if i < |a| {
        assert (a + b)[i] == a[i];
      } else {
        assert (a + b)[i] == b[i - |a|];
      }
    }
  }

  /** Every string is its stripped form padded with whitespace on both
      sides, so `StripPadded` characterises `Strip` on every input. */
  lemma {:induction false} StripIsPadded(s: string) returns (i: nat, j: nat)
    ensures i <= j <= |s|
    ensures AllSpace(s[..i]) && AllSpace(s[j..])
    ensures Strip(s) == s[i..j]
    decreases |s|
  {
    if s != [] && IsSpace(s[0]) {
      var i', j' := StripIsPadded(s[1..]);
      i, j := PadFront(s, i', j');
    } else if s != [] && IsSpace(s[|s| - 1]) {
      i, j := StripIsPadded(s[..|s| - 1]);
      PadBack(s, i, j);
    } else {
      i, j := 0, |s|;
      assert s[i..j] == s;
    }
  }

  /** One more space in front of a padded string. */
  lemma PadFront(s: string, i': nat, j': nat) returns (i: nat, j: nat)
    requires s != [] && IsSpace(s[0])
    requires i' <= j' <= |s| - 1
    requires AllSpace(s[1..][..i']) && AllSpace(s[1..][j'..])
    ensures i == i' + 1 && j == j' + 1
    ensures AllSpace(s[..i]) && AllSpace(s[j..]) && s[i..j] == s[1..][i'..j']
  {
    var t := s[1..];
    i, j := i' + 1, j' + 1;
    assert s[..i] == [s[0]] + t[..i'];
    AllSpaceAppend([s[0]], t[..i']);
    assert s[j..] == t[j'..];
    assert s[i..j] == t[i'..j'];
  }

  /** One more space behind a padded string. */
  lemma PadBack(s: string, i: nat, j: nat)
    requires s != [] && IsSpace(s[|s| - 1])
    requires i <= j <= |s| - 1
    requires AllSpace(s[..|s| - 1][..i]) && AllSpace(s[..|s| - 1][j..])
    ensures AllSpace(s[..i]) && AllSpace(s[j..]) && s[i..j] == s[..|s| - 1][i..j]
  {
    var t := s[..|s| - 1];
    assert s[..i] == t[..i];
    assert s[j..] == t[j..] + [s[|s| - 1]];
    AllSpaceAppend(t[j..], [s[|s| - 1]]);
    assert s[i..j] == t[i..j];
  }

  /** `strip()` is idempotent. */
  lemma StripIdempotent(s: string)
    ensures Strip(Strip(s)) == Strip(s)
  {
    var r := Strip(s);
    assert [] + r + [] == r;
    StripPadded([], r, []);
  }

  /** `pat` occurs in `s` starting at index `i`. */
  predicate OccursAt(s: string, pat: string, i: int)
  {
    0 <= i && i + |pat| <= |s| && s[i..i + |pat|] == pat
  }

  predicate Contains(s: string, pat: string)
  {
    exists i :: 0 <= i <= |s| && OccursAt(s, pat, i)
  }

  /** The first occurrence of `pat` at or after `from`, or -1. */
  function FindFrom(s: string, pat: string, from: nat): (r: int)
    ensures r == -1 || (from <= r && OccursAt(s, pat, r))
    ensures forall i :: from <= i && (r == -1 || i < r) ==> !OccursAt(s, pat, i)
    decreases |s| - from
  {
    if from + |pat| > |s| then -1
    else if s[from..from + |pat|] == pat then from
    else FindFrom(s, pat, from + 1)
  }

  /** Python's `s.find(pat)`: the index of the first occurrence, -1 if none. */
  function Find(s: string, pat: string): (r: int)
    ensures r == -1 <==> !Contains(s, pat)
    ensures r != -1 ==> OccursAt(s, pat, r) && forall i :: 0 <= i < r ==> !OccursAt(s, pat, i)
  {
    FindFrom(s, pat, 0)
  }

  /** Python's treatment of one slice bound: a negative index counts from
      the end, and the result is clamped to `0..n`. */
  function SliceBound(i: int, n: nat): (b: nat)
    ensures b <= n
    ensures 0 <= i <= n ==> b == i
  {
    if i < 0 then (if i + n < 0 then 0 else i + n) else if i > n then n else i
  }

  /** Python's `s[lo:hi]`: empty when the bounds cross. */
  function Slice(s: string, lo: int, hi: int): (r: string)
    ensures 0 <= lo <= hi <= |s| ==> r == s[lo..hi]
    ensures 0 <= hi <= lo ==> r == []
  {
    var a, b := SliceBound(lo, |s|), SliceBound(hi, |s|);
    if a < b then s[a..b] else []
  }

  /** Lower-casing of ASCII letters; every other character is kept. */
  function LowerChar(c: char): char
  {
    if 'A' <= c <= 'Z' then (c as int + 32) as char else c
  }

  /** Python's `s.lower()` on ASCII letters. */
  function Lower(s: string): (r: string)
    ensures |r| == |s|
  {
    if s == [] then [] else [LowerChar(s[0])] + Lower(s[1..])
  }

  lemma {:induction false} LowerAt(s: string, k: nat)
    requires k < |s|
    ensures Lower(s)[k] == LowerChar(s[k])
  {
    if k > 0 {
      LowerAt(s[1..], k - 1);
    }
  }

  /** Every character is one of `0`..`9`. */
  predicate AllDigits(s: string)
  {
    s == [] || ('0' <= s[0] <= '9' && AllDigits(s[1..]))
  }

  /** Python's `s.isdigit()` restricted to ASCII digits: non-empty and all
      of `0`..`9`. */
  function IsDigits(s: string): (r: bool)
    ensures r <==> s != [] && forall i :: 0 <= i < |s| ==> '0' <= s[i] <= '9'
  {
    AllDigitsChars(s);
    s != [] && AllDigits(s)
  }

  /** The recursive test accepts exactly the strings of `0`..`9`. */
  lemma {:induction false} AllDigitsChars(s: string)
    ensures AllDigits(s) <==> forall i :: 0 <= i < |s| ==> '0' <= s[i] <= '9'
  {
    if s != [] {
      AllDigitsChars(s[1..]);
      assert forall i :: 1 <= i < |s| ==> s[i] == s[1..][i - 1];
    }
  }
}
